=== FILE: README.md ===
# Daily Reminder: escalation engine and push fan-out, in Dafny

This project models the core of the Daily Reminder app and proves properties
of the model.

- **The client escalation engine.** `Scheduler.checkReminders` runs once a
  minute. It walks the stored tasks, alerts on each due, incomplete task,
  escalates each task's alert level at that task's own interval up to its
  `maxSteps` plateau, and drops a task's alert state once the task is
  completed today. `Scheduler.triggerAlert` turns a level into notification
  text. `TaskManager.toggleComplete` and `TaskManager.isCompletedToday` keep
  the per-date completion list.
- **The server cron job** (`api/cron.js`). It sends each user one aggregated
  reminder for their due tasks. It counts the pushes that succeed, and
  deletes a user whose subscription is gone (HTTP 410).
- **The standalone push server** (`server/index.js`). It keeps a
  subscription registry that is de-duplicated by endpoint. It also has a
  push-all endpoint that sends to every stored subscription and reports one
  result per subscription.
- **The service worker** (`sw.js`). It fills in defaults for the fields of
  a push payload. On a notification click it either focuses a client or
  opens a window.

Everything is a pure function of its inputs, or a method with real
out-parameters:

- The clock is two inputs. `nowMs` is epoch milliseconds and `now` is the
  local time of day in minutes. Today's date is a third input.
- The stores (IndexedDB, Vercel KV, `subscriptions.json`) are values passed
  in and returned.
- The push transport's answers are inputs, of type `SendOutcome`.

A tick's result is the list of alerts dispatched, the new alert state, and
the `changed` flag. The source saves the state only when that flag is set.

Several choices are made in how the source is stated here:

- **Time strings become minutes.** The source compares zero-padded
  `"HH:MM"` strings. `Clock.FormatOrder` proves that, on such strings, the
  string order is the order of minutes since midnight. The engine and the
  cron job can therefore compare minutes. Due times are assumed to be
  well-formed; "## Left out" says what other strings would do.
- **The elapsed-time test is stated without division.** The source's
  `(now - lastTime) / 60000 >= intervalMinutes` is written
  `now - lastTime >= intervalMinutes * 60000`.
- **There is no midnight reset.** An alert entry carries no date, and
  nothing in the tick compares dates with it (js/app.js:278-282). The model
  copies that. `SchedulerScenarios.NoMidnightReset` shows the effect: a
  task left at level 3 yesterday starts the next day at level 3.
- **Per-task lemmas assume unique task ids.** The task store is keyed by
  id, so a loaded task list has unique ids.
- **Cron lemmas assume distinct scanned keys.** `db.keys` lists each key
  once.

Two further behaviours of the code are kept as written:

- The level-2 message is "Attention: You have not completed …. Please do
  it now." (js/app.js:312).
- The click handler focuses a client only when `client.url === '/'`
  (sw.js:29). A browser reports a window client's URL as an absolute URL,
  so that test would not match an open app window, and the handler would
  then open a new window. The model keeps the literal test.

## Model

| member | source | states |
|---|---|---|
| `Clock.FormatHHMM` | js/app.js:246-248 | the current time is rendered as five characters, `HH:MM` with the colon in the middle |
| `Clock.StrLess` | js/app.js:269 | lexicographic string order with a proper prefix first, which is JavaScript's string `<` on the ASCII `HH:MM` text compared here; `Clock.FormatOrder` states what it means on formatted times |
| `Clock.FormatOrder` | js/app.js:269 | on zero-padded `HH:MM` strings, JavaScript's string `<` holds iff the minutes are smaller, and two strings are equal iff the minutes are |
| `Tasks.IntervalOrDefault` | js/app.js:189 | `intervalMinutes \|\| 5`: a NaN or zero interval becomes 5, any other value is kept |
| `Tasks.AddTask` | js/app.js:182-193 | a new task keeps the form's fields, has the given id and no completions, and gets the default policy: the interval as above and `maxSteps` 3 |
| `Tasks.AddTaskMeetsEngineLemmas` | js/app.js:187-190 | a task added with an absent, NaN or non-negative interval has an interval and a `maxSteps` of at least 1, as the repeated-tick lemmas require |
| `Tasks.IsCompletedToday` | js/app.js:222-225 | a task is completed today iff today's date is among its completed dates |
| `Tasks.RemoveAll` | js/app.js:216 | the filter removes every copy of the date and keeps every other date with its multiplicity |
| `Tasks.RemoveAllAppend` | js/app.js:216 | the filter keeps order: filtering a concatenation gives the concatenation of the filtered parts |
| `Tasks.ToggleDates` | js/app.js:215-219 | today is in the result iff it was not in the input; other dates keep their multiplicity; an absent today is appended |
| `Tasks.FindTask` | js/app.js:211-212 | returns the first task with the id, or none iff no task has it |
| `Tasks.ToggleComplete` | js/app.js:210-221 | an unknown id changes nothing; otherwise only the first task with the id changes, and its completed-today status flips |
| `Tasks.ToggleKeepsPosition` | js/app.js:210-219 | after a toggle, the same id is still found at the same index, so a second toggle acts on the same task |
| `Tasks.ToggleTwiceRestoresStatus` | js/app.js:214-219 | toggling twice restores whether the task is completed today |
| `Tasks.ToggleTwiceRestoresTasks` | js/app.js:214-219 | completing a task that was not completed today and then undoing it gives back the task list exactly |
| `Tasks.RemoveAppended` | js/app.js:215-219 | removing a date that was just appended to a list without it gives back the list |
| `Scheduler.TriggerAlert` | js/app.js:305-324 | level 1 (and below) gives a neutral "Reminder: t"; level 2 gives the firm "Attention: …" text; level 3 and above gives the urgent text with an "URGENT: t" title; the tag is always the task id |
| `Scheduler.Decide` | js/app.js:257-296 | a task's entry is cleared only if the task is completed today and has an entry; an alert fires only for a due, incomplete task; its level never exceeds `maxSteps` and is the previous level plus one or the cap; a due, incomplete task is held back only if it was alerted before and its interval has not elapsed |
| `Scheduler.Apply` | js/app.js:291-294 | applying a decision changes only that task's entry: clearing removes it, firing records `{level, lastTime: now}` |
| `Scheduler.Tick` | js/app.js:244-303 | no more alerts than tasks (one per task with unique ids: `SchedulerProofs.TickOneAlertPerTask`); entries of ids not among the tasks are untouched; when nothing changed the state is exactly the loaded one, so skipping the save leaves the store equal to the new state |
| `SchedulerProofs.TickStep` | js/app.js:255-292 | one step of the loop: the head task is decided against the loaded state, the rest of the walk runs on the state that decision leaves, and no later task shares the head's id |
| `SchedulerProofs.TickDispatchesMatch` | js/app.js:255-292 | with unique ids, the walk sends the same alerts, in task order, as deciding every task against the loaded state |
| `SchedulerProofs.TickStatesMatch` | js/app.js:255-292 | with unique ids, every task's entry ends the walk as its own decision against the loaded state leaves it |
| `SchedulerProofs.TickChangedMatch` | js/app.js:252-292 | with unique ids, "changed" holds iff some task's decision against the loaded state was not Keep |
| `SchedulerProofs.TickMatchesReference` | js/app.js:255-298 | with unique ids, the in-place walk gives the same alerts, in task order, as deciding every task against the loaded state; each entry ends as its own decision leaves it; "changed" holds iff some decision was not Keep |
| `SchedulerProofs.AlertForTask` | js/app.js:282-289 | with unique ids, a tick sends an alert tagged with a task's id iff that task's decision fires, and the alert sent is that task's alert at the decided level |
| `SchedulerProofs.RefDispatchesTags` | js/app.js:255-289 | every alert of the per-task reference is tagged with the id of one of the tasks |
| `SchedulerProofs.DistinctTagsCons` | js/app.js:255-289 | an alert whose tag no later alert carries can be put in front of alerts with distinct tags, and the tags stay distinct |
| `SchedulerProofs.RefDispatchesDistinctTags` | js/app.js:255-289 | with unique ids, no two alerts of the per-task reference share a tag |
| `SchedulerProofs.TickOneAlertPerTask` | js/app.js:255-289 | with unique ids, a tick sends at most one alert per task: no two dispatched alerts carry the same tag |
| `SchedulerProofs.TickClearsCompleted` | js/app.js:257-263 | a task completed today gets no alert and ends the tick with no entry; removing an existing entry sets "changed" |
| `SchedulerProofs.TickSkipsNotDue` | js/app.js:269 | an incomplete task due later today gets no alert, and its entry (or lack of one) is kept |
| `SchedulerProofs.TickFirstAlert` | js/app.js:270-283 | a due, incomplete task with no entry, or at level 0, alerts at level 1 with `lastTime = now`, however long ago it fell due |
| `SchedulerProofs.TickIntervalGate` | js/app.js:271-295 | at a non-zero level, the task escalates iff `now - lastTime >= interval * 60000`, to `{min(level+1, maxSteps), now}`; otherwise its entry is unchanged and it gets no alert |
| `SchedulerProofs.TickKeepsLevelsBounded` | js/app.js:283 | if every stored level is within `1..maxSteps` of its task, it still is after a tick |
| `SchedulerProofs.TickPlateau` | js/app.js:283-289 | at `maxSteps`, an elapsed interval fires again at `maxSteps` and stays there |
| `SchedulerProofs.SecondDecisionKeeps` | js/app.js:282 | with positive interval and `maxSteps`, a task decided at an instant is decided Keep on a second look at the same instant |
| `SchedulerProofs.AllKeepNoDispatch` | js/app.js:255-298 | when every task's decision against the loaded state is Keep, a tick sends no alert, sets no "changed" and leaves the state as it was |
| `SchedulerProofs.TickIdempotent` | js/app.js:271-282 | a second tick at the same instant, on the state the first one left, sends no alert, sets no "changed" and leaves the state as it is |
| `SchedulerProofs.DueByStringCompare` | js/app.js:269 | the engine's `currentTimeStr >= dueTime` string test agrees with `now >= dueTime` on minutes |
| `SchedulerScenarios.UrgentTitleIffLevel3` | js/app.js:314-321 | the title is "URGENT: " plus the task title iff the level is at least 3; from level 1 up, the tone never softens as the level rises |
| `SchedulerScenarios.ScenarioEscalation` | js/app.js:282-295 | ticks at 09:00, 09:03, 09:05, 09:11 and 09:20 (5-minute interval, 3 steps) give level 1, nothing, level 2, level 3, and level 3 again |
| `SchedulerScenarios.ScenarioCompletedBetweenTicks` | js/app.js:257-263 | after completion at 09:06, the 09:11 tick sends nothing and drops the level-2 entry |
| `SchedulerScenarios.NoMidnightReset` | js/app.js:278-282 | an entry left at level 3 yesterday fires at level 3, not level 1, at today's due time |
| `Cron.DueTasks` | api/cron.js:36 | the due tasks are exactly those not completed today with `dueTime <= now`, each kept as often as it occurs; the result is empty iff no task is due (task order is kept, by `CronProofs.DueTasksAppend`) |
| `Cron.ReminderPayload` | api/cron.js:41-46 | the title is "Task Reminder", the tag is "daily-reminder", and the body is "You have due tasks: " followed by the due titles joined with ", " |
| `Cron.Join` | api/cron.js:41 | `Array.prototype.join`: no parts give the empty string, and otherwise the parts are separated by the separator (`CronProofs.JoinSingle`, `CronProofs.JoinSnoc`) |
| `CronProofs.DueTasksCons` | api/cron.js:36 | filtering a list with a first task keeps that task at the front iff it is due, followed by the filtered rest |
| `CronProofs.DueTasksAppendStep` | api/cron.js:36 | if the filter keeps order on a list's tail followed by another list, it keeps order on the whole list followed by the other list |
| `CronProofs.DueTasksAppendEmpty` | api/cron.js:36 | filtering an empty list followed by another list gives the filtered other list |
| `CronProofs.DueTasksAppend` | api/cron.js:36 | the filter keeps task order: the due tasks of a concatenation are the due tasks of the first part followed by those of the second, so the reminder lists titles in stored order |
| `CronProofs.JoinSingle` | api/cron.js:41 | joining one title gives that title, with no separator |
| `CronProofs.JoinSnoc` | api/cron.js:41 | joining a non-empty list with one more title appends the separator and that title, as `Array.prototype.join` does |
| `Cron.PlannedPush` | api/cron.js:32-46 | a user is sent something iff the record exists, has tasks and a subscription, and has a due task; it is the aggregated reminder to that subscription |
| `Cron.Scan` | api/cron.js:31-59 | the count equals the number of delivered pushes; there are at most as many pushes as keys; the store loses exactly the keys whose push came back 410 |
| `Cron.Handler` | api/cron.js:18-61 | with no database, the response is 500 and nothing is sent or deleted; otherwise the response is 200, `notificationsSent` is the number delivered, and only keys answered 410 are deleted |
| `CronProofs.PlannedPushAfterRemove` | api/cron.js:31-53 | deleting one user's record leaves every other user's planned push as it was |
| `CronProofs.ScanMatchesReference` | api/cron.js:31-58 | with distinct keys, the scan attempts exactly the pushes planned against the store as found, in key order |
| `CronProofs.RefPushesKeys` | api/cron.js:30-48 | every push the scan plans goes to one of the scanned keys |
| `CronProofs.RefPushesDistinct` | api/cron.js:30-48 | with distinct scanned keys, no two planned pushes share a key |
| `CronProofs.OnePushPerDueUser` | api/cron.js:40-50 | no two pushes go to the same user; a user gets a push iff one is planned for them, and it is answered by that user's outcome |
| `CronProofs.SkipsIncompleteRecord` | api/cron.js:33 | a missing record, or one without tasks or without a subscription, gets no push and is not deleted |
| `CronProofs.GoneOnlyIfPlanned` | api/cron.js:47-53 | with distinct keys, a user is among those whose push came back 410 only if a push was planned for them and their answer was 410 |
| `CronProofs.GoneIfPlanned` | api/cron.js:47-53 | a planned push answered 410 puts that user among those to delete |
| `CronProofs.DeletesOnlyGone` | api/cron.js:51-57 | a scanned record is deleted iff it was sent a push that came back 410; otherwise it is kept unchanged |
| `CronProofs.ScenarioAggregatedReminder` | api/cron.js:36-50 | two overdue tasks "A" and "B" produce one push with body "You have due tasks: A, B", counted once |
| `Registry.LoadSubs` | server/index.js:8-13 | a file that is missing or does not parse reads as the empty list |
| `Registry.Subscribe` | server/index.js:33-44 | with no subscription: 400 and nothing saved; otherwise 201, and the list plus the new subscription is saved iff no stored subscription has its endpoint |
| `Registry.SubscribeKeepsEndpointsUnique` | server/index.js:38-42 | if stored endpoints are pairwise distinct, they still are after subscribe, and the new endpoint is stored |
| `Registry.SubscribeIdempotent` | server/index.js:39-42 | subscribing the same subscription a second time leaves the file unchanged |
| `Registry.PushAllPayload` | server/index.js:48 | a missing title becomes "Reminder" and a missing body becomes "You have a task due."; fields that are given, even empty ones, are kept |
| `Registry.PushAll` | server/index.js:47-63 | one result per stored subscription, in store order, each with that subscription's endpoint; `ok` holds iff that send was delivered; a failure records its message and later sends still happen |
| `ServiceWorker.OnPush` | sw.js:41-59 | no data, or data that does not parse, shows "Reminder" / "You have a task reminder."; JSON `null` shows nothing; otherwise a falsy title, body or tag falls back to "Reminder", "" or "task-reminder", a missing data or vibrate falls back to `{}` or `[100,50,100]`, and present values pass through |
| `ServiceWorker.ParsePayload` | sw.js:41-47 | with no data, or data that fails to parse, the built-in title and body; JSON `null` gives nothing to show; otherwise the parsed fields |
| `ServiceWorker.ShownHasTitleAndTag` | sw.js:49-52 | every notification shown has a non-empty title and tag |
| `ServiceWorker.FullPayloadShownAsSent` | sw.js:49-55 | a payload with non-empty title, body and tag, like the cron reminder, is shown with exactly those, empty data and the default vibration |
| `ServiceWorker.OnNotificationClick` | sw.js:24-38 | focuses the first client at "/" that can be focused, and does so iff one exists; otherwise it opens "/" iff the browser can open windows |

## Left out

- The IndexedDB `Persistence` wrapper (js/app.js:16-75). Its load and save are the tick's inputs and outputs.
- The timer in `Scheduler.start` (js/app.js:238-242). A tick is one call of `Tick`. Overlapping ticks are not modelled.
- `NotificationManager` (js/app.js:78-168): voice selection, the DOM, the notification permission check, and the speech rate and pitch values, which are browser APIs and floating point. Only a tone per level is kept.
- The `App` UI controller (js/app.js:332-559). This covers rendering, the form (including its edit path, which writes the parsed interval into an existing task), `registerPush` and `urlBase64ToUint8Array`. These are DOM, fetch and browser decoding.
- Real clocks and time zones. The source takes the date in UTC and the hours in local time. The model passes `today`, `nowMs` and the local time of day as independent inputs.
- `createdAt` and `updatedAt` task timestamps. Nothing in the core reads them.
- Due times that are not well-formed zero-padded "HH:MM" strings. A `dueTime` is a `Minute`, so the model only covers due times the task form's time input produces. The source compares raw strings (js/app.js:269, api/cron.js:36). With other strings the two differ: an empty `dueTime` is due at every tick and every cron run, and "09:00:00" falls due only at 09:01.
- A task with no `escalation` object. `addTask` always sets one (js/app.js:187-190), so the model's `Task` always has a policy. Without one, js/app.js:282-283 would throw and end the whole tick before the save at js/app.js:301.
- A NaN escalation interval. `Escalation.intervalMinutes` is an integer. Only the edit path can store NaN: clearing the field gives `parseInt('')` (js/app.js:398), stored at js/app.js:406. That path belongs to the UI controller, which is left out. With NaN, `minutesSinceLast >= NaN` is false at js/app.js:282, so such a task alerts once at level 1 and never again.
- Floating-point effects in the elapsed-minutes division. The model's comparison is exact.
- `webpush.sendNotification`, Vercel KV, file access and VAPID setup. These are foreign I/O: send results are `SendOutcome` inputs, and stores are values.
- The order of `db.keys('user:*')`. The scanned key list is an input.
- The commented-out cron authorization check (api/cron.js:15-16), because it is not active code.
- api/subscribe.js, api/push-test.js, api/sync.js and api/db.js. They are thin handlers with no logic beyond a 400/405 check or a key format.
- Service-worker install and fetch caching (sw.js:10-22), the `pushsubscriptionchange` log, and `notification.close()`. These are cache and browser I/O.
- JSON values that are neither objects nor `null`. A parsed number or string has none of the fields read, so it behaves like `JsonValue` with every field absent. Non-string titles, bodies and tags are not modelled.
- A `subscriptions.json` that parses to something other than an array. Subscribe then throws, because `subs.find` is not a function (server/index.js:39). Push-all throws too (server/index.js:53), unless the value is a string: it then iterates the string's characters and reports each as a failed send.
- Registry.Subscribe: a subscription is assumed to be what the browser's `PushSubscription.toJSON()` sends (js/app.js:463), so it always has a string endpoint. The server only rejects a falsy `subscription` (server/index.js:35). An object without an `endpoint` is accepted with 201; the de-duplication at server/index.js:39 compares `undefined === undefined`, so the first such subscription is saved and every later one is treated as a duplicate.
- Cron.Handler: a stored record is assumed to hold an array of task objects. The sync endpoint checks only the subscription's endpoint (api/sync.js:7) and stores `tasks` unchecked (api/sync.js:18). If `tasks` is truthy but not an array, or an array holding `null`, the filter at api/cron.js:36 throws outside any `try`. The source then ends the run: later keys are not scanned and the 200 at api/cron.js:61 is not sent. The model always scans every key and always answers 200.
- Console logging.

`Scheduler.Decide` and `Scheduler.TriggerAlert` do model level 0, negative levels and `maxSteps` below 1, exactly as the code computes them. `SchedulerProofs.TickIdempotent` and `SchedulerProofs.SecondDecisionKeeps` require a positive interval and `maxSteps`. `SchedulerProofs.TickFirstAlert` and `SchedulerProofs.TickKeepsLevelsBounded` require a positive `maxSteps`.

Every task the app stores has `maxSteps` 3: `addTask` sets it (js/app.js:190), and the edit path (js/app.js:404-406) changes only the interval. So `TickFirstAlert` and `TickKeepsLevelsBounded` cover every stored task. The gap is only about intervals:

- A task added with an absent, NaN or non-negative interval has an interval and a `maxSteps` of at least 1 (`Tasks.AddTaskMeetsEngineLemmas`).
- A negative interval is kept, because `-1 || 5` is `-1` (`Tasks.IntervalOrDefault` keeps every non-zero value).
- The edit path (js/app.js:406) stores the parsed interval unchanged, so it may store 0. It may also store NaN, which the model does not represent (see above).

For tasks with an interval of 0 or less, `TickIdempotent` and `SecondDecisionKeeps` say nothing. With interval 0, for instance, a second tick at the same instant alerts again.

=== FILE: clock.dfy ===
/** Time of day as the client engine and the cron job see it.

    Both build the current time as a zero-padded 24-hour "HH:MM" string and
    compare it with a task's due time, also "HH:MM", using JavaScript's
    string ordering (code unit by code unit).  This module defines that
    formatting and that ordering and proves that, on formatted times, the
    string order is exactly the order of minutes since midnight.  The rest
    of the model therefore compares minutes. */
module Clock {

  const MinutesPerDay := 1440

  /** Minutes since local midnight: `getHours() * 60 + getMinutes()`. */
  type Minute = m: int | 0 <= m < MinutesPerDay

  /** The decimal digit character for 0 <= n < 10. */
  function Digit(n: int): (c: char)
    requires 0 <= n < 10
    ensures '0' <= c <= '9'
    ensures c as int - '0' as int == n
  {
    ('0' as int + n) as char
  }

  /** `String(n).padStart(2, '0')` for 0 <= n < 100. */
  function Pad2(n: int): (s: string)
    requires 0 <= n < 100
    ensures |s| == 2
  {
    [Digit(n / 10), Digit(n % 10)]
  }

  /** The "HH:MM" string of a time of day. */
  function FormatHHMM(m: Minute): (s: string)
    ensures |s| == 5 && s[2] == ':'
  {
    Pad2(m / 60) + ":" + Pad2(m % 60)
  }

  /** Lexicographic order on strings, a proper prefix first.  On the
      ASCII "HH:MM" text compared here this is JavaScript's `a < b`, which
      compares UTF-16 code units; the two orders differ only above
      U+FFFF. */
  predicate StrLess(a: string, b: string)
    decreases |a|
  {
    if |a| == 0 then |b| > 0
    else if |b| == 0 then false
    else if a[0] != b[0] then a[0] < b[0]
    else StrLess(a[1..], b[1..])
  }

  /** Comparing two strings with equal-length prefixes decides on the
      prefixes first and falls through to the suffixes only on a tie. */
  lemma {:induction false} StrLessAppend(p: string, q: string, a: string, b: string)
    requires |p| == |q|
    ensures StrLess(p + a, q + b) <==> StrLess(p, q) || (p == q && StrLess(a, b))
    decreases |p|
  {
    if |p| == 0 {
      assert p + a == a && q + b == b;
    } else {
      assert (p + a)[0] == p[0] && (q + b)[0] == q[0];
      assert (p + a)[1..] == p[1..] + a;
      assert (q + b)[1..] == q[1..] + b;
      StrLessAppend(p[1..], q[1..], a, b);
      if p[0] == q[0] {
        assert p == q <==> p[1..] == q[1..] by {
          if p[1..] == q[1..] {
            assert p == [p[0]] + p[1..] && q == [q[0]] + q[1..];
          }
        }
      }
    }
  }

  lemma Pad2Order(x: int, y: int)
    requires 0 <= x < 100 && 0 <= y < 100
    ensures StrLess(Pad2(x), Pad2(y)) <==> x < y
    ensures Pad2(x) == Pad2(y) <==> x == y
  {
    var px, py := Pad2(x), Pad2(y);
    assert px == [px[0]] + [px[1]] && py == [py[0]] + [py[1]];
    StrLessAppend([px[0]], [py[0]], [px[1]], [py[1]]);
    assert StrLess([px[0]], [py[0]]) <==> px[0] < py[0] by {
      assert [px[0]][1..] == [] && [py[0]][1..] == [];
    }
    assert StrLess([px[1]], [py[1]]) <==> px[1] < py[1] by {
      assert [px[1]][1..] == [] && [py[1]][1..] == [];
    }
    if Pad2(x) == Pad2(y) {
      assert x / 10 == y / 10 && x % 10 == y % 10;
    }
  }

  /** The source's string comparison of two "HH:MM" times agrees with the
      comparison of the minutes they denote, so `currentTime >= dueTime`
      on strings is `now >= due` on minutes. */
  lemma FormatOrder(a: Minute, b: Minute)
    ensures StrLess(FormatHHMM(a), FormatHHMM(b)) <==> a < b
    ensures FormatHHMM(a) == FormatHHMM(b) <==> a == b
  {
    var ha, ma, hb, mb := a / 60, a % 60, b / 60, b % 60;
    Pad2Order(ha, hb);
    Pad2Order(ma, mb);
    StrLessAppend(Pad2(ha), Pad2(hb), ":" + Pad2(ma), ":" + Pad2(mb));
    StrLessAppend(":", ":", Pad2(ma), Pad2(mb));
    assert FormatHHMM(a) == Pad2(ha) + (":" + Pad2(ma));
    assert FormatHHMM(b) == Pad2(hb) + (":" + Pad2(mb));
    assert !StrLess(":", ":") by {
      assert ":"[1..] == [];
    }
    assert a == 60 * ha + ma && b == 60 * hb + mb;
    if FormatHHMM(a) == FormatHHMM(b) {
      assert Pad2(ha) == FormatHHMM(a)[..2] && Pad2(hb) == FormatHHMM(b)[..2];
      assert Pad2(ma) == FormatHHMM(a)[3..] && Pad2(mb) == FormatHHMM(b)[3..];
    }
  }
}

=== FILE: common.dfy ===
/** Types shared by the client engine, the cron job and the push server. */
module Common {

  /** A value that may be absent: an `undefined` field, a missing record. */
  datatype Option<+T> = None | Some(value: T) {

    /** The held value, or `default` when absent. */
    function GetOr(default: T): T {
      match this
      case Some(v) => v
      case None => default
    }
  }

  /** A Web Push subscription: the push-service endpoint URL and its
      encryption keys, which are opaque to this model. */
  datatype Subscription = Subscription(endpoint: string, keys: string)

  /** What a call to the push transport came back with.  A rejection may
      carry the push service's HTTP status (410 means the subscription is
      gone) and always carries an error message. */
  datatype SendOutcome =
    | Delivered
    | Rejected(statusCode: Option<int>, message: string)

  /** HTTP 410 Gone, the push service's signal that a subscription expired. */
  const StatusGone := 410

  predicate IsGone(o: SendOutcome) {
    o.Rejected? && o.statusCode == Some(StatusGone)
  }
}

=== FILE: cron.dfy ===
/** The server-side scheduled job (`api/cron.js`): scan every stored user,
    send one aggregated reminder push to each user with due, incomplete
    tasks, count the pushes that succeeded, and delete the record of a
    user whose subscription the push service reports gone (HTTP 410).

    The key-value store is a map; the scan's key list and the push
    service's answers are inputs, one answer per scanned key (an answer is
    consulted only when that key is actually sent a push). */
module Cron {
  import opened Common
  import opened Clock

  type Key = string

  /** A task as the client syncs it to the server. */
  datatype CronTask = CronTask(title: string, dueTime: Minute, completedToday: bool)

  /** A stored user record; either field may be missing. */
  datatype UserRecord = UserRecord(tasks: Option<seq<CronTask>>, subscription: Option<Subscription>)

  type Store = map<Key, UserRecord>

  datatype Payload = Payload(title: string, body: string, tag: string)

  /** One push the job attempted and what the push service answered. */
  datatype Push = Push(key: Key, subscription: Subscription, payload: Payload, outcome: SendOutcome)

  /** The handler's response: 500 without a database, otherwise 200 with
      the count, together with the store the job leaves behind and the
      pushes it attempted. */
  datatype CronResponse =
    | NoDb
    | Completed(notificationsSent: nat, store: Store, pushes: seq<Push>)
  {
    function Status(): int {
      if NoDb? then 500 else 200
    }
  }

  const ReminderTitle := "Task Reminder"
  const ReminderTag := "daily-reminder"
  const BodyPrefix := "You have due tasks: "

  /** `!t.completedToday && t.dueTime <= currentTime`. */
  predicate IsDue(t: CronTask, now: Minute) {
    !t.completedToday && t.dueTime <= now
  }

  /** `tasks.filter(IsDue)`: the due tasks, in task order, each as often
      as it occurs. */
  function DueTasks(tasks: seq<CronTask>, now: Minute): (r: seq<CronTask>)
    ensures forall t :: t in r <==> t in tasks && IsDue(t, now)
    ensures forall t :: multiset(r)[t] == if IsDue(t, now) then multiset(tasks)[t] else 0
    ensures r == [] <==> forall i :: 0 <= i < |tasks| ==> !IsDue(tasks[i], now)
  {
    if |tasks| == 0 then []
    else
      assert tasks == [tasks[0]] + tasks[1..];
      var rest := DueTasks(tasks[1..], now);
      if IsDue(tasks[0], now) then [tasks[0]] + rest else rest
  }

  function Titles(ts: seq<CronTask>): (r: seq<string>)
    ensures |r| == |ts| && forall i :: 0 <= i < |ts| ==> r[i] == ts[i].title
  {
    seq(|ts|, i requires 0 <= i < |ts| => ts[i].title)
  }

  /** `Array.prototype.join(sep)`. */
  function Join(parts: seq<string>, sep: string): string
    decreases |parts|
  {
    if |parts| == 0 then ""
    else if |parts| == 1 then parts[0]
    else parts[0] + sep + Join(parts[1..], sep)
  }

  /** The single aggregated reminder for a user's due tasks. */
  function ReminderPayload(due: seq<CronTask>): (p: Payload)
    ensures p.title == ReminderTitle && p.tag == ReminderTag
    ensures p.body == BodyPrefix + Join(Titles(due), ", ")
  {
    Payload(ReminderTitle, BodyPrefix + Join(Titles(due), ", "), ReminderTag)
  }

  /** What the job sends to the user under `key`, given the store as the
      scan finds it: nothing when the record is missing, lacks tasks or a
      subscription, or has no due task. */
  function PlannedPush(store: Store, key: Key, now: Minute): (r: Option<(Subscription, Payload)>)
    ensures r.Some? <==>
      && key in store
      && store[key].tasks.Some?
      && store[key].subscription.Some?
      && DueTasks(store[key].tasks.value, now) != []
    ensures r.Some? ==>
      r.value == (store[key].subscription.value, ReminderPayload(DueTasks(store[key].tasks.value, now)))
  {
    if key !in store then None
    else
      var rec := store[key];
      if rec.tasks.None? || rec.subscription.None? then None
      else
        var due := DueTasks(rec.tasks.value, now);
        if |due| > 0 then Some((rec.subscription.value, ReminderPayload(due))) else None
  }

  /** How many attempted pushes succeeded. */
  function CountDelivered(pushes: seq<Push>): (n: nat)
    ensures n <= |pushes|
  {
    if |pushes| == 0 then 0
    else (if pushes[0].outcome.Delivered? then 1 else 0) + CountDelivered(pushes[1..])
  }

  /** The keys whose push came back 410 Gone. */
  function GoneKeys(pushes: seq<Push>): set<Key> {
    set i | 0 <= i < |pushes| && IsGone(pushes[i].outcome) :: pushes[i].key
  }

  lemma GoneKeysCons(p: Push, rest: seq<Push>)
    ensures GoneKeys([p] + rest) == (if IsGone(p.outcome) then {p.key} else {}) + GoneKeys(rest)
  {
    var ps := [p] + rest;
    forall k | k in GoneKeys(ps)
      ensures k in (if IsGone(p.outcome) then {p.key} else {}) + GoneKeys(rest)
    {
      var i :| 0 <= i < |ps| && IsGone(ps[i].outcome) && ps[i].key == k;
      if i > 0 {
        assert rest[i - 1] == ps[i];
      }
    }
    forall k | k in GoneKeys(rest)
      ensures k in GoneKeys(ps)
    {
      var i :| 0 <= i < |rest| && IsGone(rest[i].outcome) && rest[i].key == k;
      assert ps[i + 1] == rest[i];
    }
    if IsGone(p.outcome) {
      assert ps[0] == p;
    }
  }

  datatype ScanResult = ScanResult(sent: nat, store: Store, pushes: seq<Push>)

  /** The loop over the scanned keys.  Each key gets at most one push; the
      count is the number of pushes delivered; and the store loses exactly
      the keys whose push came back 410, nothing else. */
  function Scan(store: Store, keys: seq<Key>, outcomes: seq<SendOutcome>, now: Minute): (r: ScanResult)
    requires |outcomes| == |keys|
    ensures r.sent == CountDelivered(r.pushes)
    ensures |r.pushes| <= |keys|
    ensures r.store == store - GoneKeys(r.pushes)
    decreases |keys|
  {
    if |keys| == 0 then ScanResult(0, store, [])
    else
      var k := keys[0];
      match PlannedPush(store, k, now)
      case None => Scan(store, keys[1..], outcomes[1..], now)
      case Some(plan) =>
        var o := outcomes[0];
        var store1 := if IsGone(o) then store - {k} else store;
        var rest := Scan(store1, keys[1..], outcomes[1..], now);
        var p := Push(k, plan.0, plan.1, o);
        GoneKeysCons(p, rest.pushes);
        assert ([p] + rest.pushes)[1..] == rest.pushes;
        ScanResult((if o.Delivered? then 1 else 0) + rest.sent, rest.store, [p] + rest.pushes)
  }

  /** `handler`: without a database, 500 and nothing else happens;
      otherwise the scan's count is reported with 200. */
  function Handler(db: Option<Store>, keys: seq<Key>, outcomes: seq<SendOutcome>, now: Minute): (r: CronResponse)
    requires |outcomes| == |keys|
    ensures db.None? <==> r.NoDb?
    ensures r.NoDb? ==> r.Status() == 500
    ensures r.Completed? ==>
      && r.Status() == 200
      && r.notificationsSent == CountDelivered(r.pushes)
      && |r.pushes| <= |keys|
      && r.store == db.value - GoneKeys(r.pushes)
  {
    match db
    case None => NoDb
    case Some(store) =>
      var s := Scan(store, keys, outcomes, now);
      Completed(s.sent, s.store, s.pushes)
  }
}

=== FILE: cron_proofs.dfy ===
/** Properties of the cron job.  `db.keys` lists each stored key once, so
    the lemmas assume distinct scanned keys; under that condition every
    user is handled against the store as the job found it
    (`ScanMatchesReference`). */
module CronProofs {
  import opened Common
  import opened Clock
  import opened Cron
  import opened Seqs

  predicate DistinctKeys(keys: seq<Key>) {
    forall i, j :: 0 <= i < j < |keys| ==> keys[i] != keys[j]
  }

  /** The push for the i-th scanned key, planned against `store`. */
  function PushFor(store: Store, keys: seq<Key>, outcomes: seq<SendOutcome>, now: Minute, i: int): Option<Push>
    requires |outcomes| == |keys| && 0 <= i < |keys|
  {
    match PlannedPush(store, keys[i], now)
    case None => None
    case Some(plan) => Some(Push(keys[i], plan.0, plan.1, outcomes[i]))
  }

  /** Reference: every scanned key planned against the starting store. */
  function RefPushes(store: Store, keys: seq<Key>, outcomes: seq<SendOutcome>, now: Minute): seq<Push>
    requires |outcomes| == |keys|
    decreases |keys|
  {
    if |keys| == 0 then []
    else
      (match PushFor(store, keys, outcomes, now, 0) case None => [] case Some(p) => [p])
      + RefPushes(store, keys[1..], outcomes[1..], now)
  }

  lemma {:induction false} RefPushesFrame(s: Store, s': Store, keys: seq<Key>, outcomes: seq<SendOutcome>, now: Minute)
    requires |outcomes| == |keys|
    requires forall i :: 0 <= i < |keys| ==> PlannedPush(s, keys[i], now) == PlannedPush(s', keys[i], now)
    ensures RefPushes(s, keys, outcomes, now) == RefPushes(s', keys, outcomes, now)
    decreases |keys|
  {
    if |keys| > 0 {
      RefPushesFrame(s, s', keys[1..], outcomes[1..], now);
    }
  }

  /** Removing one key leaves every other key's planned push alone. */
  lemma PlannedPushAfterRemove(store: Store, gone: Key, k: Key, now: Minute)
    requires k != gone
    ensures PlannedPush(store - {gone}, k, now) == PlannedPush(store, k, now)
  {
    assert (k in store - {gone}) == (k in store);
    if k in store {
      assert (store - {gone})[k] == store[k];
    }
  }

  /** The scan attempts exactly the reference pushes, in key order. */
  lemma {:induction false} ScanMatchesReference(store: Store, keys: seq<Key>, outcomes: seq<SendOutcome>, now: Minute)
    requires |outcomes| == |keys| && DistinctKeys(keys)
    ensures Scan(store, keys, outcomes, now).pushes == RefPushes(store, keys, outcomes, now)
    decreases |keys|
  {
    if |keys| > 0 {
      var k := keys[0];
      var tail, otail := keys[1..], outcomes[1..];
      assert DistinctKeys(tail);
      var store1 := if PlannedPush(store, k, now).Some? && IsGone(outcomes[0]) then store - {k} else store;
      forall i | 0 <= i < |tail|
        ensures PlannedPush(store1, tail[i], now) == PlannedPush(store, tail[i], now)
      {
        assert tail[i] == keys[i + 1];
        PlannedPushAfterRemove(store, k, tail[i], now);
      }
      ScanMatchesReference(store1, tail, otail, now);
      RefPushesFrame(store1, store, tail, otail, now);
      var head := match PushFor(store, keys, outcomes, now, 0) case None => [] case Some(p) => [p];
      assert Scan(store, keys, outcomes, now).pushes == head + Scan(store1, tail, otail, now).pushes;
    }
  }

  lemma PushForTail(store: Store, keys: seq<Key>, outcomes: seq<SendOutcome>, now: Minute)
    requires |outcomes| == |keys| && |keys| > 0
    ensures forall i :: 0 <= i < |keys| - 1 ==>
      PushFor(store, keys[1..], outcomes[1..], now, i) == PushFor(store, keys, outcomes, now, i + 1)
  {
  }

  /** Every reference push is some scanned key's planned push. */
  lemma {:induction false} RefPushesSound(store: Store, keys: seq<Key>, outcomes: seq<SendOutcome>, now: Minute)
    requires |outcomes| == |keys|
    ensures forall p :: p in RefPushes(store, keys, outcomes, now) ==>
      exists i :: 0 <= i < |keys| && PushFor(store, keys, outcomes, now, i) == Some(p)
    decreases |keys|
  {
    if |keys| > 0 {
      var tail, otail := keys[1..], outcomes[1..];
      RefPushesSound(store, tail, otail, now);
      PushForTail(store, keys, outcomes, now);
      forall p | p in RefPushes(store, keys, outcomes, now)
        ensures exists i :: 0 <= i < |keys| && PushFor(store, keys, outcomes, now, i) == Some(p)
      {
        if p in RefPushes(store, tail, otail, now) {
          var i :| 0 <= i < |tail| && PushFor(store, tail, otail, now, i) == Some(p);
          assert PushFor(store, keys, outcomes, now, i + 1) == Some(p);
        } else {
          assert PushFor(store, keys, outcomes, now, 0) == Some(p);
        }
      }
    }
  }

  /** Every planned push is among the reference pushes. */
  lemma {:induction false} RefPushesComplete(store: Store, keys: seq<Key>, outcomes: seq<SendOutcome>, now: Minute)
    requires |outcomes| == |keys|
    ensures forall i :: 0 <= i < |keys| && PushFor(store, keys, outcomes, now, i).Some? ==>
      PushFor(store, keys, outcomes, now, i).value in RefPushes(store, keys, outcomes, now)
    decreases |keys|
  {
    if |keys| > 0 {
      var tail, otail := keys[1..], outcomes[1..];
      RefPushesComplete(store, tail, otail, now);
      PushForTail(store, keys, outcomes, now);
      forall i | 0 <= i < |keys| && PushFor(store, keys, outcomes, now, i).Some?
        ensures PushFor(store, keys, outcomes, now, i).value in RefPushes(store, keys, outcomes, now)
      {
        if i > 0 {
          assert PushFor(store, tail, otail, now, i - 1) == PushFor(store, keys, outcomes, now, i);
        }
      }
    }
  }

  /** No two pushes of the list share a key. */
  predicate DistinctPushKeys(ps: seq<Push>) {
    forall a, b :: 0 <= a < b < |ps| ==> ps[a].key != ps[b].key
  }

  /** Every reference push goes to one of the scanned keys. */
  lemma {:induction false} RefPushesKeys(store: Store, keys: seq<Key>, outcomes: seq<SendOutcome>, now: Minute)
    requires |outcomes| == |keys|
    ensures forall p :: p in RefPushes(store, keys, outcomes, now) ==> p.key in keys
    decreases |keys|
  {
    if |keys| > 0 {
      RefPushesKeys(store, keys[1..], outcomes[1..], now);
      assert forall k :: k in keys[1..] ==> k in keys;
    }
  }

  lemma DistinctPushKeysCons(p: Push, rest: seq<Push>)
    requires DistinctPushKeys(rest)
    requires forall q :: q in rest ==> q.key != p.key
    ensures DistinctPushKeys([p] + rest)
  {
    var ps := [p] + rest;
    forall a, b | 0 <= a < b < |ps|
      ensures ps[a].key != ps[b].key
    {
      assert ps[b] == rest[b - 1];
      if a > 0 {
        assert ps[a] == rest[a - 1];
      } else {
        assert rest[b - 1] in rest;
      }
    }
  }

  /** With distinct scanned keys, no two reference pushes share a key. */
  lemma {:induction false} RefPushesDistinct(store: Store, keys: seq<Key>, outcomes: seq<SendOutcome>, now: Minute)
    requires |outcomes| == |keys| && DistinctKeys(keys)
    ensures DistinctPushKeys(RefPushes(store, keys, outcomes, now))
    decreases |keys|
  {
    if |keys| > 0 {
      var tail, otail := keys[1..], outcomes[1..];
      assert DistinctKeys(tail);
      RefPushesDistinct(store, tail, otail, now);
      RefPushesKeys(store, tail, otail, now);
      var rest := RefPushes(store, tail, otail, now);
      assert keys[0] !in tail by {
        forall j | 0 <= j < |tail| ensures tail[j] != keys[0] {
          assert tail[j] == keys[j + 1];
        }
      }
      match PushFor(store, keys, outcomes, now, 0)
      case None =>
      case Some(p) =>
        assert p.key == keys[0];
        DistinctPushKeysCons(p, rest);
    }
  }

  /** At most one push per user, and a user gets one iff the record is
      present with tasks and a subscription and has a due task; the push
      then goes to that subscription with the aggregated reminder and is
      answered by that user's outcome. */
  lemma OnePushPerDueUser(store: Store, keys: seq<Key>, outcomes: seq<SendOutcome>, now: Minute, i: int)
    requires |outcomes| == |keys| && DistinctKeys(keys) && 0 <= i < |keys|
    ensures var r := Scan(store, keys, outcomes, now);
      && (forall a, b :: 0 <= a < b < |r.pushes| ==> r.pushes[a].key != r.pushes[b].key)
      && ((exists p :: p in r.pushes && p.key == keys[i]) <==> PlannedPush(store, keys[i], now).Some?)
      && (PushFor(store, keys, outcomes, now, i).Some? ==> PushFor(store, keys, outcomes, now, i).value in r.pushes)
  {
    ScanMatchesReference(store, keys, outcomes, now);
    RefPushesDistinct(store, keys, outcomes, now);
    PushIffPlanned(store, keys, outcomes, now, i);
  }

  lemma PushIffPlanned(store: Store, keys: seq<Key>, outcomes: seq<SendOutcome>, now: Minute, i: int)
    requires |outcomes| == |keys| && DistinctKeys(keys) && 0 <= i < |keys|
    ensures var ps := RefPushes(store, keys, outcomes, now);
      && ((exists p :: p in ps && p.key == keys[i]) <==> PushFor(store, keys, outcomes, now, i).Some?)
      && (PushFor(store, keys, outcomes, now, i).Some? ==> PushFor(store, keys, outcomes, now, i).value in ps)
  {
    RefPushesSound(store, keys, outcomes, now);
    RefPushesComplete(store, keys, outcomes, now);
    var ps := RefPushes(store, keys, outcomes, now);
    if exists p :: p in ps && p.key == keys[i] {
      var p :| p in ps && p.key == keys[i];
      var j :| 0 <= j < |keys| && PushFor(store, keys, outcomes, now, j) == Some(p);
      assert keys[j] == keys[i];
      assert j == i;
    }
    if PushFor(store, keys, outcomes, now, i).Some? {
      assert PushFor(store, keys, outcomes, now, i).value.key == keys[i];
    }
  }

  /** A record that is missing, or lacks tasks or a subscription, is
      skipped: no push, and the record (if any) is kept. */
  lemma SkipsIncompleteRecord(store: Store, keys: seq<Key>, outcomes: seq<SendOutcome>, now: Minute, i: int)
    requires |outcomes| == |keys| && DistinctKeys(keys) && 0 <= i < |keys|
    requires keys[i] !in store || store[keys[i]].tasks.None? || store[keys[i]].subscription.None?
    ensures var r := Scan(store, keys, outcomes, now);
      && (forall p :: p in r.pushes ==> p.key != keys[i])
      && (keys[i] in store ==> keys[i] in r.store && r.store[keys[i]] == store[keys[i]])
  {
    OnePushPerDueUser(store, keys, outcomes, now, i);
  }

  /** A key's push is among the gone ones only if it was planned and its
      outcome is 410. */
  lemma GoneOnlyIfPlanned(store: Store, keys: seq<Key>, outcomes: seq<SendOutcome>, now: Minute, i: int)
    requires |outcomes| == |keys| && DistinctKeys(keys) && 0 <= i < |keys|
    ensures keys[i] in GoneKeys(RefPushes(store, keys, outcomes, now)) ==>
      PlannedPush(store, keys[i], now).Some? && IsGone(outcomes[i])
  {
    var ps := RefPushes(store, keys, outcomes, now);
    if keys[i] in GoneKeys(ps) {
      RefPushesSound(store, keys, outcomes, now);
      var a :| 0 <= a < |ps| && IsGone(ps[a].outcome) && ps[a].key == keys[i];
      assert ps[a] in ps;
      var j :| 0 <= j < |keys| && PushFor(store, keys, outcomes, now, j) == Some(ps[a]);
      assert keys[j] == keys[i];
      assert j == i;
    }
  }

  /** A planned push answered 410 puts its key among the gone ones. */
  lemma GoneIfPlanned(store: Store, keys: seq<Key>, outcomes: seq<SendOutcome>, now: Minute, i: int)
    requires |outcomes| == |keys| && 0 <= i < |keys|
    ensures PlannedPush(store, keys[i], now).Some? && IsGone(outcomes[i]) ==>
      keys[i] in GoneKeys(RefPushes(store, keys, outcomes, now))
  {
    var ps := RefPushes(store, keys, outcomes, now);
    if PlannedPush(store, keys[i], now).Some? && IsGone(outcomes[i]) {
      RefPushesComplete(store, keys, outcomes, now);
      var p := PushFor(store, keys, outcomes, now, i).value;
      assert p in ps;
      var a :| 0 <= a < |ps| && ps[a] == p;
      assert IsGone(ps[a].outcome) && ps[a].key == keys[i];
    }
  }

  /** A user's record is deleted iff that user was sent a push that came
      back 410; any other failure, a success, or no push keeps it. */
  lemma DeletesOnlyGone(store: Store, keys: seq<Key>, outcomes: seq<SendOutcome>, now: Minute, i: int)
    requires |outcomes| == |keys| && DistinctKeys(keys) && 0 <= i < |keys|
    requires keys[i] in store
    ensures var r := Scan(store, keys, outcomes, now);
      && (keys[i] !in r.store <==> PlannedPush(store, keys[i], now).Some? && IsGone(outcomes[i]))
      && (keys[i] in r.store ==> r.store[keys[i]] == store[keys[i]])
  {
    ScanMatchesReference(store, keys, outcomes, now);
    GoneOnlyIfPlanned(store, keys, outcomes, now, i);
    GoneIfPlanned(store, keys, outcomes, now, i);
  }

  lemma DueTasksCons(x: CronTask, rest: seq<CronTask>, now: Minute)
    ensures DueTasks([x] + rest, now) == (if IsDue(x, now) then [x] else []) + DueTasks(rest, now)
  {
    assert ([x] + rest)[1..] == rest;
  }

  /** One element of `DueTasksAppend`'s induction, given the fact for the
      tail. */
  lemma DueTasksAppendStep(a: seq<CronTask>, b: seq<CronTask>, now: Minute)
    requires |a| > 0
    requires DueTasks(a[1..] + b, now) == DueTasks(a[1..], now) + DueTasks(b, now)
    ensures DueTasks(a + b, now) == DueTasks(a, now) + DueTasks(b, now)
  {
    var x, tail := a[0], a[1..];
    var h := if IsDue(x, now) then [x] else [];
    assert DueTasks(a + b, now) == h + DueTasks(tail + b, now) by {
      ConsSplit(a, b);
      DueTasksCons(x, tail + b, now);
    }
    assert DueTasks(a, now) == h + DueTasks(tail, now) by {
      ConsSplit(a, b);
      DueTasksCons(x, tail, now);
    }
    ConcatAssoc(h, DueTasks(tail, now), DueTasks(b, now));
  }

  lemma DueTasksAppendEmpty(a: seq<CronTask>, b: seq<CronTask>, now: Minute)
    requires |a| == 0
    ensures DueTasks(a + b, now) == DueTasks(a, now) + DueTasks(b, now)
  {
    EmptyConcat(a, b);
    EmptyConcat(DueTasks(a, now), DueTasks(b, now));
  }

  /** The filter keeps task order: filtering a concatenation is the
      concatenation of the filtered parts, so the reminder body lists the
      due titles in the order the tasks are stored. */
  lemma {:induction false} DueTasksAppend(a: seq<CronTask>, b: seq<CronTask>, now: Minute)
    ensures DueTasks(a + b, now) == DueTasks(a, now) + DueTasks(b, now)
    decreases |a|
  {
    if |a| > 0 {
      DueTasksAppend(a[1..], b, now);
      DueTasksAppendStep(a, b, now);
    } else {
      DueTasksAppendEmpty(a, b, now);
    }
  }

  /** A single part is joined to itself. */
  lemma JoinSingle(x: string, sep: string)
    ensures Join([x], sep) == x
  {
  }

  /** Appending a part to a non-empty list appends the separator and the
      part to the joined text, as `Array.prototype.join` does. */
  lemma {:induction false} JoinSnoc(xs: seq<string>, x: string, sep: string)
    requires |xs| > 0
    ensures Join(xs + [x], sep) == Join(xs, sep) + sep + x
    decreases |xs|
  {
    if |xs| == 1 {
      assert (xs + [x])[1..] == [x];
      JoinSingle(x, sep);
    } else {
      assert (xs + [x])[1..] == xs[1..] + [x];
      JoinSnoc(xs[1..], x, sep);
    }
  }

  /** Two overdue, incomplete tasks "A" and "B" of one user produce one
      push whose body lists both titles, counted once when delivered. */
  lemma ScenarioAggregatedReminder(sub: Subscription)
    ensures var store := map["user:1" := UserRecord(Some([CronTask("A", 540, false), CronTask("B", 600, false)]), Some(sub))];
      Handler(Some(store), ["user:1"], [Delivered], 610)
        == Completed(1, store, [Push("user:1", sub, Payload("Task Reminder", "You have due tasks: A, B", "daily-reminder"), Delivered)])
  {
    var tasks := [CronTask("A", 540, false), CronTask("B", 600, false)];
    assert DueTasks(tasks, 610) == tasks by {
      assert tasks[1..] == [CronTask("B", 600, false)];
      assert tasks[1..][1..] == [];
    }
    assert Titles(tasks) == ["A", "B"];
    assert Join(["A", "B"], ", ") == "A, B" by {
      assert ["A", "B"][1..] == ["B"];
    }
    assert BodyPrefix + "A, B" == "You have due tasks: A, B";
  }
}

=== FILE: registry.dfy ===
/** The standalone push server (`server/index.js`): a registry of Web Push
    subscriptions kept in a JSON file, with a subscribe endpoint that
    de-duplicates by endpoint and a push-all endpoint that fans one
    payload out to every stored subscription.

    The file's contents before a request are an input and what the
    handler writes back is an output; the push service's answer to each
    send is an input, one per stored subscription in store order. */
module Registry {
  import opened Common

  /** What reading `subscriptions.json` yields. */
  datatype SubsFile = Missing | Unparseable | Parsed(subs: seq<Subscription>)

  /** `loadSubs`: the parsed list, or the empty list when the file cannot
      be read or parsed. */
  function LoadSubs(file: SubsFile): (r: seq<Subscription>)
    ensures file.Parsed? ==> r == file.subs
    ensures !file.Parsed? ==> r == []
  {
    if file.Parsed? then file.subs else []
  }

  predicate HasEndpoint(subs: seq<Subscription>, endpoint: string) {
    exists i :: 0 <= i < |subs| && subs[i].endpoint == endpoint
  }

  predicate UniqueEndpoints(subs: seq<Subscription>) {
    forall i, j :: 0 <= i < j < |subs| ==> subs[i].endpoint != subs[j].endpoint
  }

  /** A response status, the `error` text of an error reply, and the list
      written back with `saveSubs` (`None` when nothing is written). */
  datatype SubscribeResponse = SubscribeResponse(status: int, error: Option<string>, saved: Option<seq<Subscription>>)

  /** `POST /api/subscribe`: 400 without a subscription; otherwise 201
      `{ok: true}`, appending the subscription and saving only when no
      stored subscription has its endpoint. */
  function Subscribe(sub: Option<Subscription>, file: SubsFile): (r: SubscribeResponse)
    ensures sub.None? ==> r == SubscribeResponse(400, Some("Missing subscription"), None)
    ensures sub.Some? ==> r.status == 201 && r.error.None?
    ensures sub.Some? ==>
      (r.saved.Some? <==> !HasEndpoint(LoadSubs(file), sub.value.endpoint))
    ensures r.saved.Some? ==> r.saved.value == LoadSubs(file) + [sub.value]
  {
    match sub
    case None => SubscribeResponse(400, Some("Missing subscription"), None)
    case Some(s) =>
      var subs := LoadSubs(file);
      if HasEndpoint(subs, s.endpoint) then SubscribeResponse(201, None, None)
      else SubscribeResponse(201, None, Some(subs + [s]))
  }

  /** The file after a request: what was saved, else what was there. */
  function FileAfter(file: SubsFile, r: SubscribeResponse): SubsFile {
    if r.saved.Some? then Parsed(r.saved.value) else file
  }

  /** Subscribing keeps the stored endpoints pairwise distinct, and the
      subscription's endpoint is stored afterwards. */
  lemma SubscribeKeepsEndpointsUnique(sub: Subscription, file: SubsFile)
    requires UniqueEndpoints(LoadSubs(file))
    ensures var after := LoadSubs(FileAfter(file, Subscribe(Some(sub), file)));
      UniqueEndpoints(after) && HasEndpoint(after, sub.endpoint)
  {
    var subs := LoadSubs(file);
    var after := LoadSubs(FileAfter(file, Subscribe(Some(sub), file)));
    if !HasEndpoint(subs, sub.endpoint) {
      assert after == subs + [sub];
      assert after[|subs|].endpoint == sub.endpoint;
      forall i, j | 0 <= i < j < |after|
        ensures after[i].endpoint != after[j].endpoint
      {
        if j == |subs| {
          assert after[i] == subs[i];
        } else {
          assert after[i] == subs[i] && after[j] == subs[j];
        }
      }
    }
  }

  /** Subscribing the same subscription again changes nothing. */
  lemma SubscribeIdempotent(sub: Subscription, file: SubsFile)
    ensures var once := FileAfter(file, Subscribe(Some(sub), file));
      FileAfter(once, Subscribe(Some(sub), once)) == once
  {
    var once := FileAfter(file, Subscribe(Some(sub), file));
    var subs := LoadSubs(once);
    if !HasEndpoint(LoadSubs(file), sub.endpoint) {
      assert subs[|subs| - 1] == sub;
    }
    assert HasEndpoint(subs, sub.endpoint);
  }

  /** The body of a push-all request; a field the client leaves out is
      `None`. */
  datatype PushRequest = PushRequest(title: Option<string>, body: Option<string>)

  datatype PushPayload = PushPayload(title: string, body: string)

  /** One entry of the push-all reply. */
  datatype PushResult = PushResult(endpoint: string, ok: bool, error: Option<string>)

  const DefaultPushTitle := "Reminder"
  const DefaultPushBody := "You have a task due."

  /** `const { title = 'Reminder', body = 'You have a task due.' } = req.body || {}`:
      a destructuring default applies only to a missing field, so an empty
      title or body is sent as given. */
  function PushAllPayload(req: Option<PushRequest>): (p: PushPayload)
    ensures req.Some? && req.value.title.Some? ==> p.title == req.value.title.value
    ensures req.None? || req.value.title.None? ==> p.title == DefaultPushTitle
    ensures req.Some? && req.value.body.Some? ==> p.body == req.value.body.value
    ensures req.None? || req.value.body.None? ==> p.body == DefaultPushBody
  {
    var r := req.GetOr(PushRequest(None, None));
    PushPayload(r.title.GetOr(DefaultPushTitle), r.body.GetOr(DefaultPushBody))
  }

  /** The result entry for one send. */
  function ResultOf(sub: Subscription, o: SendOutcome): PushResult {
    match o
    case Delivered => PushResult(sub.endpoint, true, None)
    case Rejected(_, msg) => PushResult(sub.endpoint, false, Some(msg))
  }

  /** `POST /api/push-all`: sends the payload to every stored subscription
      in store order, recording one result per subscription; a failed send
      records its error message and the loop goes on. */
  method PushAll(req: Option<PushRequest>, file: SubsFile, outcomes: seq<SendOutcome>)
    returns (payload: PushPayload, results: seq<PushResult>)
    requires |outcomes| == |LoadSubs(file)|
    ensures payload == PushAllPayload(req)
    ensures |results| == |LoadSubs(file)|
    ensures forall i :: 0 <= i < |results| ==>
      && results[i].endpoint == LoadSubs(file)[i].endpoint
      && (results[i].ok <==> outcomes[i].Delivered?)
      && (results[i].ok ==> results[i].error.None?)
      && (!results[i].ok ==> results[i].error == Some(outcomes[i].message))
  {
    payload := PushAllPayload(req);
    var subs := LoadSubs(file);
    results := [];
    var n := 0;
    while n < |subs|
      invariant 0 <= n <= |subs|
      invariant |results| == n
      invariant forall i :: 0 <= i < n ==> results[i] == ResultOf(subs[i], outcomes[i])
    {
      results := results + [ResultOf(subs[n], outcomes[n])];
      n := n + 1;
    }
  }
}

=== FILE: scheduler.dfy ===
/** The client's escalation engine, `Scheduler.checkReminders` and
    `Scheduler.triggerAlert`, as a pure function of one clock tick.

    The source loads all tasks and the persisted alert state, walks the
    tasks in order while updating the state in place, fires alerts as it
    goes, and saves the state once at the end if anything changed.  Here
    that walk is `Tick`, a left-to-right fold whose inputs are the loaded
    tasks and state and whose outputs are the alerts fired, the new state
    and the "changed" flag that decides whether the source saves it. */
module Scheduler {
  import opened Common
  import opened Clock
  import opened Tasks

  const MsPerMinute := 60000

  /** One task's persisted entry `{level, lastTime}`; `lastTime` is the
      epoch-millisecond instant of the last alert. */
  datatype AlertEntry = AlertEntry(level: int, lastTime: int)

  /** The persisted aggregate, keyed by task id. */
  type AlertState = map<TaskId, AlertEntry>

  /** The entry the source substitutes for a missing one. */
  const NeverAlerted := AlertEntry(0, 0)

  function Lookup(state: AlertState, id: TaskId): Option<AlertEntry> {
    if id in state then Some(state[id]) else None
  }

  function Min(a: int, b: int): int {
    if a <= b then a else b
  }

  /** Voice style of an alert; the speech rate and pitch behind each tone
      are not modelled. */
  datatype Tone = Neutral | Firm | Angry

  /** One dispatched alert: the notification's title, body (also the
      spoken text) and de-duplication tag, with its tone and level. */
  datatype Alert = Alert(title: string, message: string, tag: TaskId, tone: Tone, level: int)

  /** `triggerAlert(task, level)`: level 2 is firm, level 3 and above is
      urgent with an "URGENT: " title, anything else is a neutral
      reminder; the tag is always the task id, so a newer notification for
      the same task replaces the older one. */
  function TriggerAlert(task: Task, level: int): (a: Alert)
    ensures a.tag == task.id && a.level == level
    ensures level >= 3 ==>
      && a.tone == Angry
      && a.title == "URGENT: " + task.title
      && a.message == "Urgent! " + task.title + " is overdue. Complete it immediately!"
    ensures level == 2 ==>
      && a.tone == Firm
      && a.title == task.title
      && a.message == "Attention: You have not completed " + task.title + ". Please do it now."
    ensures level < 2 ==>
      && a.tone == Neutral
      && a.title == task.title
      && a.message == "Reminder: " + task.title
  {
    var t := task.title;
    if level == 2 then
      Alert(t, "Attention: You have not completed " + t + ". Please do it now.", task.id, Firm, level)
    else if level >= 3 then
      Alert("URGENT: " + t, "Urgent! " + t + " is overdue. Complete it immediately!", task.id, Angry, level)
    else
      Alert(t, "Reminder: " + t, task.id, Neutral, level)
  }

  /** What one tick does to one task. */
  datatype Decision =
    | Keep            // no alert, entry untouched
    | Clear           // completed today: drop the entry
    | Fire(level: int) // alert at `level` and record it

  /** The escalation interval, elapsed since the last alert, has passed:
      `(now - lastTime) / 60000 >= intervalMinutes`. */
  predicate IntervalElapsed(entry: AlertEntry, task: Task, nowMs: int) {
    nowMs - entry.lastTime >= task.escalation.intervalMinutes * MsPerMinute
  }

  /** The per-task body of the loop in `checkReminders`, given the task's
      own entry (if any), the instant `nowMs`, the local time of day `now`
      and today's date. */
  function Decide(task: Task, entry: Option<AlertEntry>, nowMs: int, now: Minute, today: Date): (d: Decision)
    ensures d.Clear? ==> IsCompletedToday(task, today) && entry.Some?
    ensures d.Fire? ==> !IsCompletedToday(task, today) && now >= task.dueTime
    ensures d.Fire? ==> d.level <= task.escalation.maxSteps
    ensures d.Fire? ==> d.level == entry.GetOr(NeverAlerted).level + 1
                        || d.level == task.escalation.maxSteps
    ensures d.Keep? && !IsCompletedToday(task, today) && now >= task.dueTime ==>
              entry.Some? && entry.value.level != 0 && !IntervalElapsed(entry.value, task, nowMs)
  {
    if IsCompletedToday(task, today) then
      if entry.Some? then Clear else Keep
    else if now >= task.dueTime then
      var last := entry.GetOr(NeverAlerted);
      if last.level == 0 || IntervalElapsed(last, task, nowMs) then
        Fire(Min(last.level + 1, task.escalation.maxSteps))
      else Keep
    else Keep
  }

  /** The state after applying a decision for task `id`. */
  function Apply(state: AlertState, id: TaskId, d: Decision, nowMs: int): (s: AlertState)
    ensures forall k :: k != id ==> Lookup(s, k) == Lookup(state, k)
    ensures d.Keep? ==> s == state
    ensures d.Clear? ==> id !in s
    ensures d.Fire? ==> Lookup(s, id) == Some(AlertEntry(d.level, nowMs))
  {
    match d
    case Keep => state
    case Clear => state - {id}
    case Fire(n) => state[id := AlertEntry(n, nowMs)]
  }

  /** The alerts a decision dispatches: one for `Fire`, none otherwise. */
  function AlertsOf(task: Task, d: Decision): seq<Alert> {
    if d.Fire? then [TriggerAlert(task, d.level)] else []
  }

  /** The ids of a task list. */
  function Ids(tasks: seq<Task>): set<TaskId> {
    set i | 0 <= i < |tasks| :: tasks[i].id
  }

  /** Everything one run of `checkReminders` produces. */
  datatype TickResult = TickResult(dispatches: seq<Alert>, state: AlertState, changed: bool)

  /** One run of `checkReminders`: tasks are visited in order, each seeing
      the state as left by the ones before it.  At most one alert per task;
      only the visited tasks' entries can change; and when nothing changed
      the state is exactly the loaded one, so skipping the save leaves the
      store holding the new state either way. */
  function Tick(tasks: seq<Task>, state: AlertState, nowMs: int, now: Minute, today: Date): (r: TickResult)
    ensures |r.dispatches| <= |tasks|
    ensures !r.changed ==> r.state == state
    ensures forall k :: k !in Ids(tasks) ==> Lookup(r.state, k) == Lookup(state, k)
    decreases |tasks|
  {
    if |tasks| == 0 then TickResult([], state, false)
    else
      var t := tasks[0];
      var d := Decide(t, Lookup(state, t.id), nowMs, now, today);
      var rest := Tick(tasks[1..], Apply(state, t.id, d, nowMs), nowMs, now, today);
      assert forall k :: k in Ids(tasks[1..]) ==> k in Ids(tasks) by {
        forall k | k in Ids(tasks[1..])
          ensures k in Ids(tasks)
        {
          var i :| 0 <= i < |tasks[1..]| && tasks[1..][i].id == k;
          assert tasks[i + 1].id == k;
        }
      }
      assert t.id in Ids(tasks) by {
        assert tasks[0].id == t.id;
      }
      TickResult(AlertsOf(t, d) + rest.dispatches, rest.state, !d.Keep? || rest.changed)
  }
}

=== FILE: scheduler_proofs.dfy ===
/** Properties of the escalation engine.

    The task store is keyed by task id, so a loaded task list never holds
    two tasks with the same id.  Under that condition the sequential walk
    in `Tick` is equivalent to deciding every task independently against
    the state loaded at the start of the tick (`TickMatchesReference`);
    the per-task properties are corollaries of that. */
module SchedulerProofs {
  import opened Common
  import opened Clock
  import opened Tasks
  import opened Scheduler

  predicate UniqueIds(tasks: seq<Task>) {
    forall i, j :: 0 <= i < j < |tasks| ==> tasks[i].id != tasks[j].id
  }

  /** The decision for `task` against the tick's starting state. */
  function DecisionFor(task: Task, st: AlertState, nowMs: int, now: Minute, today: Date): Decision {
    Decide(task, Lookup(st, task.id), nowMs, now, today)
  }

  /** Reference: the alerts of every task, each decided against `st`. */
  function RefDispatches(tasks: seq<Task>, st: AlertState, nowMs: int, now: Minute, today: Date): seq<Alert>
    decreases |tasks|
  {
    if |tasks| == 0 then []
    else AlertsOf(tasks[0], DecisionFor(tasks[0], st, nowMs, now, today))
         + RefDispatches(tasks[1..], st, nowMs, now, today)
  }

  /** Reference: the entry `task` ends the tick with. */
  function RefEntry(task: Task, st: AlertState, nowMs: int, now: Minute, today: Date): Option<AlertEntry> {
    match DecisionFor(task, st, nowMs, now, today)
    case Keep => Lookup(st, task.id)
    case Clear => None
    case Fire(n) => Some(AlertEntry(n, nowMs))
  }

  /** Reference decisions read nothing but the tasks' own entries. */
  lemma {:induction false} RefFrame(tasks: seq<Task>, st: AlertState, st': AlertState, nowMs: int, now: Minute, today: Date)
    requires forall i :: 0 <= i < |tasks| ==> Lookup(st, tasks[i].id) == Lookup(st', tasks[i].id)
    ensures RefDispatches(tasks, st, nowMs, now, today) == RefDispatches(tasks, st', nowMs, now, today)
    ensures forall i :: 0 <= i < |tasks| ==>
      RefEntry(tasks[i], st, nowMs, now, today) == RefEntry(tasks[i], st', nowMs, now, today)
    decreases |tasks|
  {
    if |tasks| > 0 {
      RefFrame(tasks[1..], st, st', nowMs, now, today);
    }
  }

  /** One step of the tick: the head task is decided against `st`, the
      tail runs on the state that decision leaves, and since no tail task
      shares the head's id, the tail's reference is the same on either
      state. */
  lemma TickStep(tasks: seq<Task>, st: AlertState, nowMs: int, now: Minute, today: Date)
    requires UniqueIds(tasks) && |tasks| > 0
    ensures UniqueIds(tasks[1..])
    ensures Tick(tasks, st, nowMs, now, today).dispatches
      == AlertsOf(tasks[0], DecisionFor(tasks[0], st, nowMs, now, today))
         + Tick(tasks[1..], Apply(st, tasks[0].id, DecisionFor(tasks[0], st, nowMs, now, today), nowMs), nowMs, now, today).dispatches
    ensures Tick(tasks, st, nowMs, now, today).state
      == Tick(tasks[1..], Apply(st, tasks[0].id, DecisionFor(tasks[0], st, nowMs, now, today), nowMs), nowMs, now, today).state
    ensures Tick(tasks, st, nowMs, now, today).changed
      == (!DecisionFor(tasks[0], st, nowMs, now, today).Keep?
          || Tick(tasks[1..], Apply(st, tasks[0].id, DecisionFor(tasks[0], st, nowMs, now, today), nowMs), nowMs, now, today).changed)
    ensures tasks[0].id !in Ids(tasks[1..])
    ensures forall i :: 0 <= i < |tasks| - 1 ==>
      Lookup(Apply(st, tasks[0].id, DecisionFor(tasks[0], st, nowMs, now, today), nowMs), tasks[1..][i].id)
        == Lookup(st, tasks[i + 1].id)
  {
    var tail := tasks[1..];
    assert UniqueIds(tail);
    forall i | 0 <= i < |tail|
      ensures tail[i].id != tasks[0].id
    {
      assert tail[i] == tasks[i + 1];
    }
  }

  /** The tick's alerts are the reference alerts. */
  lemma {:induction false} TickDispatchesMatch(tasks: seq<Task>, st: AlertState, nowMs: int, now: Minute, today: Date)
    requires UniqueIds(tasks)
    ensures Tick(tasks, st, nowMs, now, today).dispatches == RefDispatches(tasks, st, nowMs, now, today)
    decreases |tasks|
  {
    if |tasks| > 0 {
      TickStep(tasks, st, nowMs, now, today);
      var st1 := Apply(st, tasks[0].id, DecisionFor(tasks[0], st, nowMs, now, today), nowMs);
      TickDispatchesMatch(tasks[1..], st1, nowMs, now, today);
      RefFrame(tasks[1..], st1, st, nowMs, now, today);
    }
  }

  /** Each task's entry ends as its own reference decision leaves it. */
  lemma {:induction false} TickStatesMatch(tasks: seq<Task>, st: AlertState, nowMs: int, now: Minute, today: Date)
    requires UniqueIds(tasks)
    ensures forall i :: 0 <= i < |tasks| ==>
      Lookup(Tick(tasks, st, nowMs, now, today).state, tasks[i].id) == RefEntry(tasks[i], st, nowMs, now, today)
    decreases |tasks|
  {
    if |tasks| > 0 {
      TickStep(tasks, st, nowMs, now, today);
      var tail := tasks[1..];
      var st1 := Apply(st, tasks[0].id, DecisionFor(tasks[0], st, nowMs, now, today), nowMs);
      TickStatesMatch(tail, st1, nowMs, now, today);
      RefFrame(tail, st1, st, nowMs, now, today);
      var r := Tick(tasks, st, nowMs, now, today);
      assert Lookup(r.state, tasks[0].id) == Lookup(st1, tasks[0].id);
      forall i | 0 <= i < |tasks|
        ensures Lookup(r.state, tasks[i].id) == RefEntry(tasks[i], st, nowMs, now, today)
      {
        if i > 0 {
          assert tasks[i] == tail[i - 1];
        }
      }
    }
  }

  /** "Changed" holds iff some task's reference decision is not `Keep`. */
  lemma {:induction false} TickChangedMatch(tasks: seq<Task>, st: AlertState, nowMs: int, now: Minute, today: Date)
    requires UniqueIds(tasks)
    ensures Tick(tasks, st, nowMs, now, today).changed
      <==> exists i :: 0 <= i < |tasks| && !DecisionFor(tasks[i], st, nowMs, now, today).Keep?
    decreases |tasks|
  {
    if |tasks| > 0 {
      TickStep(tasks, st, nowMs, now, today);
      var tail := tasks[1..];
      var d := DecisionFor(tasks[0], st, nowMs, now, today);
      var st1 := Apply(st, tasks[0].id, d, nowMs);
      TickChangedMatch(tail, st1, nowMs, now, today);
      if Tick(tasks, st, nowMs, now, today).changed && d.Keep? {
        var j :| 0 <= j < |tail| && !DecisionFor(tail[j], st1, nowMs, now, today).Keep?;
        assert DecisionFor(tail[j], st1, nowMs, now, today) == DecisionFor(tasks[j + 1], st, nowMs, now, today);
      }
      if !d.Keep? {
        assert !DecisionFor(tasks[0], st, nowMs, now, today).Keep?;
      }
      if exists i :: 0 <= i < |tasks| && !DecisionFor(tasks[i], st, nowMs, now, today).Keep? {
        var i :| 0 <= i < |tasks| && !DecisionFor(tasks[i], st, nowMs, now, today).Keep?;
        if i > 0 {
          assert tasks[i] == tail[i - 1];
          assert DecisionFor(tail[i - 1], st1, nowMs, now, today) == DecisionFor(tasks[i], st, nowMs, now, today);
        }
      }
    }
  }

  /** The sequential tick equals the independent per-task reference: same
      alerts in task order, each task's entry as its own decision leaves it,
      and "changed" iff some task's decision was not `Keep`. */
  lemma TickMatchesReference(tasks: seq<Task>, st: AlertState, nowMs: int, now: Minute, today: Date)
    requires UniqueIds(tasks)
    ensures var r := Tick(tasks, st, nowMs, now, today);
      && r.dispatches == RefDispatches(tasks, st, nowMs, now, today)
      && (forall i :: 0 <= i < |tasks| ==>
            Lookup(r.state, tasks[i].id) == RefEntry(tasks[i], st, nowMs, now, today))
      && (r.changed <==> exists i :: 0 <= i < |tasks| && !DecisionFor(tasks[i], st, nowMs, now, today).Keep?)
  {
    TickDispatchesMatch(tasks, st, nowMs, now, today);
    TickStatesMatch(tasks, st, nowMs, now, today);
    TickChangedMatch(tasks, st, nowMs, now, today);
  }

  /** An alert in the reference dispatches comes from a task that fired,
      and every task that fired contributes its alert. */
  lemma {:induction false} RefDispatchesSources(tasks: seq<Task>, st: AlertState, nowMs: int, now: Minute, today: Date)
    ensures forall a :: a in RefDispatches(tasks, st, nowMs, now, today) ==>
      exists j :: 0 <= j < |tasks| && DecisionFor(tasks[j], st, nowMs, now, today).Fire?
        && a == TriggerAlert(tasks[j], DecisionFor(tasks[j], st, nowMs, now, today).level)
    ensures forall j :: 0 <= j < |tasks| && DecisionFor(tasks[j], st, nowMs, now, today).Fire? ==>
      TriggerAlert(tasks[j], DecisionFor(tasks[j], st, nowMs, now, today).level) in RefDispatches(tasks, st, nowMs, now, today)
    decreases |tasks|
  {
    if |tasks| > 0 {
      var tail := tasks[1..];
      RefDispatchesSources(tail, st, nowMs, now, today);
      var rd := RefDispatches(tasks, st, nowMs, now, today);
      var head := AlertsOf(tasks[0], DecisionFor(tasks[0], st, nowMs, now, today));
      assert rd == head + RefDispatches(tail, st, nowMs, now, today);
      forall a | a in rd
        ensures exists j :: (0 <= j < |tasks| && DecisionFor(tasks[j], st, nowMs, now, today).Fire?
          && a == TriggerAlert(tasks[j], DecisionFor(tasks[j], st, nowMs, now, today).level))
      {
        if a in head {
          assert DecisionFor(tasks[0], st, nowMs, now, today).Fire?;
        } else {
          var j :| 0 <= j < |tail| && DecisionFor(tail[j], st, nowMs, now, today).Fire?
            && a == TriggerAlert(tail[j], DecisionFor(tail[j], st, nowMs, now, today).level);
          assert tail[j] == tasks[j + 1];
        }
      }
      forall j | 0 <= j < |tasks| && DecisionFor(tasks[j], st, nowMs, now, today).Fire?
        ensures TriggerAlert(tasks[j], DecisionFor(tasks[j], st, nowMs, now, today).level) in rd
      {
        if j > 0 {
          assert tasks[j] == tail[j - 1];
        }
      }
    }
  }

  /** No two alerts of the list carry the same tag. */
  predicate DistinctTags(ds: seq<Alert>) {
    forall a, b :: 0 <= a < b < |ds| ==> ds[a].tag != ds[b].tag
  }

  /** Every reference alert is tagged with the id of one of the tasks. */
  lemma {:induction false} RefDispatchesTags(tasks: seq<Task>, st: AlertState, nowMs: int, now: Minute, today: Date)
    ensures forall a :: a in RefDispatches(tasks, st, nowMs, now, today) ==> a.tag in Ids(tasks)
    decreases |tasks|
  {
    if |tasks| > 0 {
      var tail := tasks[1..];
      RefDispatchesTags(tail, st, nowMs, now, today);
      forall k | k in Ids(tail)
        ensures k in Ids(tasks)
      {
        var i :| 0 <= i < |tail| && tail[i].id == k;
        assert tasks[i + 1].id == k;
      }
      assert tasks[0].id in Ids(tasks) by {
        assert tasks[0].id == tasks[0].id;
      }
    }
  }

  lemma DistinctTagsCons(x: Alert, rest: seq<Alert>)
    requires DistinctTags(rest)
    requires forall q :: q in rest ==> q.tag != x.tag
    ensures DistinctTags([x] + rest)
  {
    var ds := [x] + rest;
    forall a, b | 0 <= a < b < |ds|
      ensures ds[a].tag != ds[b].tag
    {
      assert ds[b] == rest[b - 1];
      if a > 0 {
        assert ds[a] == rest[a - 1];
      } else {
        assert rest[b - 1] in rest;
      }
    }
  }

  /** With unique ids, no two reference alerts share a tag. */
  lemma {:induction false} RefDispatchesDistinctTags(tasks: seq<Task>, st: AlertState, nowMs: int, now: Minute, today: Date)
    requires UniqueIds(tasks)
    ensures DistinctTags(RefDispatches(tasks, st, nowMs, now, today))
    decreases |tasks|
  {
    if |tasks| > 0 {
      var tail := tasks[1..];
      assert UniqueIds(tail);
      RefDispatchesDistinctTags(tail, st, nowMs, now, today);
      RefDispatchesTags(tail, st, nowMs, now, today);
      assert tasks[0].id !in Ids(tail) by {
        forall i | 0 <= i < |tail|
          ensures tail[i].id != tasks[0].id
        {
          assert tail[i] == tasks[i + 1];
        }
      }
      var d := DecisionFor(tasks[0], st, nowMs, now, today);
      var rest := RefDispatches(tail, st, nowMs, now, today);
      if d.Fire? {
        var x := TriggerAlert(tasks[0], d.level);
        assert RefDispatches(tasks, st, nowMs, now, today) == [x] + rest;
        DistinctTagsCons(x, rest);
      } else {
        assert RefDispatches(tasks, st, nowMs, now, today) == rest;
      }
    }
  }

  /** With unique ids, a tick sends at most one alert per task: no two
      dispatched alerts carry the same tag. */
  lemma TickOneAlertPerTask(tasks: seq<Task>, st: AlertState, nowMs: int, now: Minute, today: Date)
    requires UniqueIds(tasks)
    ensures var ds := Tick(tasks, st, nowMs, now, today).dispatches;
      forall a, b :: 0 <= a < b < |ds| ==> ds[a].tag != ds[b].tag
  {
    TickDispatchesMatch(tasks, st, nowMs, now, today);
    RefDispatchesDistinctTags(tasks, st, nowMs, now, today);
  }

  /** With unique ids, a tick dispatches an alert tagged with task i's id
      iff task i's decision is `Fire`, and then it is that task's alert at
      the decided level. */
  lemma AlertForTask(tasks: seq<Task>, st: AlertState, nowMs: int, now: Minute, today: Date, i: int)
    requires UniqueIds(tasks) && 0 <= i < |tasks|
    ensures var r := Tick(tasks, st, nowMs, now, today);
      var d := DecisionFor(tasks[i], st, nowMs, now, today);
      && ((exists a :: a in r.dispatches && a.tag == tasks[i].id) <==> d.Fire?)
      && (d.Fire? ==> TriggerAlert(tasks[i], d.level) in r.dispatches)
  {
    TickMatchesReference(tasks, st, nowMs, now, today);
    RefDispatchesSources(tasks, st, nowMs, now, today);
    var r := Tick(tasks, st, nowMs, now, today);
    var d := DecisionFor(tasks[i], st, nowMs, now, today);
    if exists a :: a in r.dispatches && a.tag == tasks[i].id {
      var a :| a in r.dispatches && a.tag == tasks[i].id;
      var j :| 0 <= j < |tasks| && DecisionFor(tasks[j], st, nowMs, now, today).Fire?
        && a == TriggerAlert(tasks[j], DecisionFor(tasks[j], st, nowMs, now, today).level);
      assert tasks[j].id == tasks[i].id;
      assert j == i;
    }
    if d.Fire? {
      assert TriggerAlert(tasks[i], d.level).tag == tasks[i].id;
    }
  }

  /** A task completed today gets no alert, ends the tick without an
      entry, and its removal marks the state as changed. */
  lemma TickClearsCompleted(tasks: seq<Task>, st: AlertState, nowMs: int, now: Minute, today: Date, i: int)
    requires UniqueIds(tasks) && 0 <= i < |tasks|
    requires IsCompletedToday(tasks[i], today)
    ensures var r := Tick(tasks, st, nowMs, now, today);
      && tasks[i].id !in r.state
      && (forall a :: a in r.dispatches ==> a.tag != tasks[i].id)
      && (tasks[i].id in st ==> r.changed)
  {
    TickMatchesReference(tasks, st, nowMs, now, today);
    AlertForTask(tasks, st, nowMs, now, today, i);
  }

  /** A task not yet due today (its "HH:MM" is later than now) gets no
      alert and keeps its entry, or lack of one. */
  lemma TickSkipsNotDue(tasks: seq<Task>, st: AlertState, nowMs: int, now: Minute, today: Date, i: int)
    requires UniqueIds(tasks) && 0 <= i < |tasks|
    requires !IsCompletedToday(tasks[i], today) && now < tasks[i].dueTime
    ensures var r := Tick(tasks, st, nowMs, now, today);
      && Lookup(r.state, tasks[i].id) == Lookup(st, tasks[i].id)
      && (forall a :: a in r.dispatches ==> a.tag != tasks[i].id)
  {
    TickMatchesReference(tasks, st, nowMs, now, today);
    AlertForTask(tasks, st, nowMs, now, today, i);
  }

  /** A due, incomplete task without an entry, or at level 0, alerts at
      level 1 on this tick however long ago it fell due. */
  lemma TickFirstAlert(tasks: seq<Task>, st: AlertState, nowMs: int, now: Minute, today: Date, i: int)
    requires UniqueIds(tasks) && 0 <= i < |tasks|
    requires !IsCompletedToday(tasks[i], today) && now >= tasks[i].dueTime
    requires tasks[i].id !in st || st[tasks[i].id].level == 0
    requires tasks[i].escalation.maxSteps >= 1
    ensures var r := Tick(tasks, st, nowMs, now, today);
      && Lookup(r.state, tasks[i].id) == Some(AlertEntry(1, nowMs))
      && TriggerAlert(tasks[i], 1) in r.dispatches
  {
    TickMatchesReference(tasks, st, nowMs, now, today);
    AlertForTask(tasks, st, nowMs, now, today, i);
  }

  /** An already-alerted, due, incomplete task escalates iff the interval
      has elapsed since its last alert, to `min(level + 1, maxSteps)`;
      otherwise the tick leaves its entry alone and sends it nothing. */
  lemma TickIntervalGate(tasks: seq<Task>, st: AlertState, nowMs: int, now: Minute, today: Date, i: int)
    requires UniqueIds(tasks) && 0 <= i < |tasks|
    requires !IsCompletedToday(tasks[i], today) && now >= tasks[i].dueTime
    requires tasks[i].id in st && st[tasks[i].id].level != 0
    ensures var r := Tick(tasks, st, nowMs, now, today);
      var e := st[tasks[i].id];
      var next := Min(e.level + 1, tasks[i].escalation.maxSteps);
      && ((exists a :: a in r.dispatches && a.tag == tasks[i].id)
            <==> nowMs - e.lastTime >= tasks[i].escalation.intervalMinutes * MsPerMinute)
      && (nowMs - e.lastTime >= tasks[i].escalation.intervalMinutes * MsPerMinute ==>
            Lookup(r.state, tasks[i].id) == Some(AlertEntry(next, nowMs))
            && TriggerAlert(tasks[i], next) in r.dispatches)
      && (nowMs - e.lastTime < tasks[i].escalation.intervalMinutes * MsPerMinute ==>
            Lookup(r.state, tasks[i].id) == Some(e))
  {
    TickMatchesReference(tasks, st, nowMs, now, today);
    AlertForTask(tasks, st, nowMs, now, today, i);
  }

  /** Every stored entry of a task is at a level between 1 and the task's
      own `maxSteps`. */
  predicate LevelsBounded(tasks: seq<Task>, st: AlertState) {
    forall i :: 0 <= i < |tasks| && tasks[i].id in st ==>
      1 <= st[tasks[i].id].level <= tasks[i].escalation.maxSteps
  }

  /** With positive `maxSteps`, a tick keeps every level within
      `1..maxSteps`: the level is capped, never exceeding the plateau. */
  lemma {:induction false} TickKeepsLevelsBounded(tasks: seq<Task>, st: AlertState, nowMs: int, now: Minute, today: Date)
    requires UniqueIds(tasks)
    requires forall i :: 0 <= i < |tasks| ==> tasks[i].escalation.maxSteps >= 1
    requires LevelsBounded(tasks, st)
    ensures LevelsBounded(tasks, Tick(tasks, st, nowMs, now, today).state)
  {
    TickMatchesReference(tasks, st, nowMs, now, today);
    var r := Tick(tasks, st, nowMs, now, today);
    forall i | 0 <= i < |tasks| && tasks[i].id in r.state
      ensures 1 <= r.state[tasks[i].id].level <= tasks[i].escalation.maxSteps
    {
      assert Lookup(r.state, tasks[i].id) == Some(r.state[tasks[i].id]);
    }
  }

  /** At the plateau a due task whose interval has elapsed fires again at
      `maxSteps` and stays there. */
  lemma TickPlateau(tasks: seq<Task>, st: AlertState, nowMs: int, now: Minute, today: Date, i: int)
    requires UniqueIds(tasks) && 0 <= i < |tasks|
    requires !IsCompletedToday(tasks[i], today) && now >= tasks[i].dueTime
    requires tasks[i].id in st && st[tasks[i].id].level == tasks[i].escalation.maxSteps >= 1
    requires nowMs - st[tasks[i].id].lastTime >= tasks[i].escalation.intervalMinutes * MsPerMinute
    ensures var r := Tick(tasks, st, nowMs, now, today);
      var m := tasks[i].escalation.maxSteps;
      && Lookup(r.state, tasks[i].id) == Some(AlertEntry(m, nowMs))
      && TriggerAlert(tasks[i], m) in r.dispatches
  {
    TickIntervalGate(tasks, st, nowMs, now, today, i);
  }

  /** When every task's decision against `st` is `Keep`, a tick sends no
      alert, sets no "changed" and leaves the state as it is. */
  lemma {:induction false} AllKeepNoDispatch(tasks: seq<Task>, st: AlertState, nowMs: int, now: Minute, today: Date)
    requires forall i :: 0 <= i < |tasks| ==> DecisionFor(tasks[i], st, nowMs, now, today).Keep?
    ensures var r := Tick(tasks, st, nowMs, now, today);
      r.dispatches == [] && !r.changed && r.state == st
    decreases |tasks|
  {
    if |tasks| > 0 {
      assert DecisionFor(tasks[0], st, nowMs, now, today).Keep?;
      assert forall i :: 0 <= i < |tasks[1..]| ==> tasks[1..][i] == tasks[i + 1];
      AllKeepNoDispatch(tasks[1..], st, nowMs, now, today);
    }
  }

  /** A task decided once at `nowMs` is decided `Keep` by a second look
      at the same instant on the entry the first decision left. */
  lemma SecondDecisionKeeps(task: Task, st: AlertState, nowMs: int, now: Minute, today: Date)
    requires task.escalation.intervalMinutes >= 1 && task.escalation.maxSteps >= 1
    requires task.id in st ==> st[task.id].level >= 0
    ensures Decide(task, RefEntry(task, st, nowMs, now, today), nowMs, now, today).Keep?
  {
  }

  /** Running a second tick at the same instant, on the state the first one
      left, dispatches nothing and changes nothing (given positive
      intervals and `maxSteps`, and no negative stored level): reloading the saved state never double-alerts. */
  lemma {:induction false} TickIdempotent(tasks: seq<Task>, st: AlertState, nowMs: int, now: Minute, today: Date)
    requires UniqueIds(tasks)
    requires forall i :: 0 <= i < |tasks| ==>
      tasks[i].escalation.intervalMinutes >= 1 && tasks[i].escalation.maxSteps >= 1
    requires forall k :: k in st ==> st[k].level >= 0
    ensures var r1 := Tick(tasks, st, nowMs, now, today);
      var r2 := Tick(tasks, r1.state, nowMs, now, today);
      r2.dispatches == [] && !r2.changed && r2.state == r1.state
  {
    var r1 := Tick(tasks, st, nowMs, now, today);
    TickMatchesReference(tasks, st, nowMs, now, today);
    var s1 := r1.state;
    forall i | 0 <= i < |tasks|
      ensures DecisionFor(tasks[i], s1, nowMs, now, today).Keep?
    {
      SecondDecisionKeeps(tasks[i], st, nowMs, now, today);
    }
    AllKeepNoDispatch(tasks, s1, nowMs, now, today);
  }

  /** The engine's "HH:MM" string test and its minute test agree. */
  lemma DueByStringCompare(task: Task, now: Minute)
    ensures !StrLess(FormatHHMM(now), FormatHHMM(task.dueTime)) <==> now >= task.dueTime
  {
    FormatOrder(now, task.dueTime);
  }
}

module SchedulerScenarios {
  import opened Common
  import opened Clock
  import opened Tasks
  import opened Scheduler

  /** A notification carries the "URGENT: " title exactly from level 3
      on, and the alert's tone never softens as the level rises. */
  lemma UrgentTitleIffLevel3(task: Task, level: int)
    ensures TriggerAlert(task, level).title == "URGENT: " + task.title <==> level >= 3
    ensures level >= 1 ==> ToneRank(TriggerAlert(task, level).tone) <= ToneRank(TriggerAlert(task, level + 1).tone)
  {
  }

  function ToneRank(t: Tone): nat {
    match t
    case Neutral => 0
    case Firm => 1
    case Angry => 2
  }

  const DayMs := 24 * 60 * MsPerMinute

  /** The task of the worked scenarios: due 09:00, re-alert every 5
      minutes, at most 3 levels. */
  function ScenarioTask(done: seq<Date>): Task {
    Task("t1", "Pills", 540, Daily, Normal, Escalation(5, 3), done)
  }

  /** The epoch instant of minute `m` of day `day`. */
  function At(day: nat, m: Minute): int {
    day * DayMs + m * MsPerMinute
  }

  lemma AlertTextNeutral()
    ensures TriggerAlert(ScenarioTask([]), 1) == Alert("Pills", "Reminder: Pills", "t1", Neutral, 1)
  {
  }

  lemma AlertTextFirm()
    ensures TriggerAlert(ScenarioTask([]), 2)
      == Alert("Pills", "Attention: You have not completed Pills. Please do it now.", "t1", Firm, 2)
  {
  }

  lemma AlertTextUrgent()
    ensures TriggerAlert(ScenarioTask([]), 3)
      == Alert("URGENT: Pills", "Urgent! Pills is overdue. Complete it immediately!", "t1", Angry, 3)
  {
    assert "URGENT: " + "Pills" == "URGENT: Pills";
    var m := "Urgent! " + "Pills";
    assert m == "Urgent! Pills";
    assert m + " is overdue. Complete it immediately!" == "Urgent! Pills is overdue. Complete it immediately!";
  }

  /** Ticks at 09:00, 09:03, 09:05, 09:11 and 09:20 on an uncompleted
      task: level 1, nothing, level 2, level 3 ("URGENT: "), and level 3
      again at the plateau. */
  lemma ScenarioEscalation()
    ensures var tasks := [ScenarioTask([])];
      var r0 := Tick(tasks, map[], At(0, 540), 540, "d0");
      var r1 := Tick(tasks, r0.state, At(0, 543), 543, "d0");
      var r2 := Tick(tasks, r1.state, At(0, 545), 545, "d0");
      var r3 := Tick(tasks, r2.state, At(0, 551), 551, "d0");
      var r4 := Tick(tasks, r3.state, At(0, 560), 560, "d0");
      && r0.dispatches == [Alert("Pills", "Reminder: Pills", "t1", Neutral, 1)]
      && r1.dispatches == [] && !r1.changed
      && r2.dispatches == [Alert("Pills", "Attention: You have not completed Pills. Please do it now.", "t1", Firm, 2)]
      && r3.dispatches == [Alert("URGENT: Pills", "Urgent! Pills is overdue. Complete it immediately!", "t1", Angry, 3)]
      && r4.dispatches == r3.dispatches
      && r4.state == map["t1" := AlertEntry(3, At(0, 560))]
  {
    var tasks := [ScenarioTask([])];
    var t := tasks[0];
    AlertTextNeutral();
    AlertTextFirm();
    AlertTextUrgent();
    var r0 := Tick(tasks, map[], At(0, 540), 540, "d0");
    assert r0.dispatches == [TriggerAlert(t, 1)] + [];
    assert r0.state == map["t1" := AlertEntry(1, At(0, 540))];
    var r1 := Tick(tasks, r0.state, At(0, 543), 543, "d0");
    assert r1.state == r0.state;
    var r2 := Tick(tasks, r1.state, At(0, 545), 545, "d0");
    assert r2.dispatches == [TriggerAlert(t, 2)] + [];
    assert r2.state == map["t1" := AlertEntry(2, At(0, 545))];
    var r3 := Tick(tasks, r2.state, At(0, 551), 551, "d0");
    assert r3.dispatches == [TriggerAlert(t, 3)] + [];
    var r4 := Tick(tasks, r3.state, At(0, 560), 560, "d0");
    assert r4.dispatches == [TriggerAlert(t, 3)] + [];
    assert r3.state == map["t1" := AlertEntry(3, At(0, 551))];
  }

  /** Completing the task at 09:06 (after the level-2 alert): the 09:11
      tick dispatches nothing and drops the entry. */
  lemma ScenarioCompletedBetweenTicks()
    ensures var st := map["t1" := AlertEntry(2, At(0, 545))];
      var r := Tick([ScenarioTask(["d0"])], st, At(0, 551), 551, "d0");
      r.dispatches == [] && r.state == map[] && r.changed
  {
  }

  /** The source keeps no date with an entry and never resets it at
      midnight: an uncompleted task left at level 3 yesterday fires its
      first alert of the next day at the urgent plateau, not at level 1. */
  lemma NoMidnightReset()
    ensures var st := map["t1" := AlertEntry(3, At(0, 560))];
      var r := Tick([ScenarioTask([])], st, At(1, 540), 540, "d1");
      r.dispatches == [Alert("URGENT: Pills", "Urgent! Pills is overdue. Complete it immediately!", "t1", Angry, 3)]
  {
    var st := map["t1" := AlertEntry(3, At(0, 560))];
    AlertTextUrgent();
    var r := Tick([ScenarioTask([])], st, At(1, 540), 540, "d1");
    assert r.dispatches == [TriggerAlert(ScenarioTask([]), 3)] + [];
  }
}

=== FILE: seqs.dfy ===
/** Generic sequence identities used by the order-preservation proofs. */
module Seqs {

  /** A non-empty sequence is its head before its tail, also under
      concatenation. */
  lemma ConsSplit<X>(a: seq<X>, b: seq<X>)
    requires |a| > 0
    ensures a == [a[0]] + a[1..] && a + b == [a[0]] + (a[1..] + b)
  {
    assert a + b == [a[0]] + (a[1..] + b);
  }

  /** Concatenating an empty sequence on the left changes nothing. */
  lemma EmptyConcat<X>(a: seq<X>, b: seq<X>)
    requires |a| == 0
    ensures a == [] && a + b == b
  {
  }

  /** Concatenation is associative. */
  lemma ConcatAssoc<X>(a: seq<X>, b: seq<X>, c: seq<X>)
    ensures a + (b + c) == (a + b) + c
  {
  }
}

=== FILE: service_worker.dfy ===
/** The service worker's two decisions (`sw.js`): which notification to
    show for an incoming push, and what to do when a notification is
    clicked.  Showing, focusing and opening windows are the browser's; the
    model returns what would be shown or done. */
module ServiceWorker {
  import opened Common

  /** The fields of a parsed push payload that the worker reads.  `None` is
      a field that is absent (or `null`); an empty string is present but
      falsy. */
  datatype PushFields = PushFields(
    title: Option<string>,
    body: Option<string>,
    tag: Option<string>,
    data: Option<map<string, string>>,
    vibrate: Option<seq<int>>)

  /** The push event's data: none at all, text that is not JSON, the JSON
      value `null`, or a JSON value with some of the fields above. */
  datatype PushData = NoData | Malformed | JsonNull | JsonValue(fields: PushFields)

  /** The notification `showNotification(title, options)` is called with. */
  datatype Shown = Shown(title: string, body: string, tag: string, data: map<string, string>, vibrate: seq<int>)

  const FallbackTitle := "Reminder"
  const FallbackBody := "You have a task reminder."
  const DefaultTag := "task-reminder"
  const DefaultVibrate: seq<int> := [100, 50, 100]

  /** JavaScript truthiness of an optional string. */
  predicate Truthy(s: Option<string>) {
    s.Some? && s.value != ""
  }

  /** `s || fallback` on an optional string. */
  function OrElse(s: Option<string>, fallback: string): (r: string)
    ensures Truthy(s) ==> r == s.value
    ensures !Truthy(s) ==> r == fallback
  {
    if Truthy(s) then s.value else fallback
  }

  /** The payload the `push` listener works with: the built-in fallback
      when there is no data or it does not parse, `None` when it parses to
      `null` (reading `payload.title` then throws and nothing is shown). */
  function ParsePayload(data: PushData): Option<PushFields> {
    match data
    case NoData => Some(PushFields(Some(FallbackTitle), Some(FallbackBody), None, None, None))
    case Malformed => Some(PushFields(Some(FallbackTitle), Some(FallbackBody), None, None, None))
    case JsonNull => None
    case JsonValue(f) => Some(f)
  }

  /** The `push` listener.  Title, body and tag fall back when falsy; data
      and vibrate fall back only when absent, since an object or an array
      is always truthy; present values pass through unchanged. */
  function OnPush(data: PushData): (r: Option<Shown>)
    ensures data.NoData? || data.Malformed? ==>
      r == Some(Shown(FallbackTitle, FallbackBody, DefaultTag, map[], DefaultVibrate))
    ensures data.JsonNull? ==> r.None?
    ensures data.JsonValue? ==> r.Some?
    ensures data.JsonValue? ==>
      var f := data.fields;
      && r.value.title == (if Truthy(f.title) then f.title.value else FallbackTitle)
      && r.value.body == (if Truthy(f.body) then f.body.value else "")
      && r.value.tag == (if Truthy(f.tag) then f.tag.value else DefaultTag)
      && r.value.data == (if f.data.Some? then f.data.value else map[])
      && r.value.vibrate == (if f.vibrate.Some? then f.vibrate.value else DefaultVibrate)
  {
    match ParsePayload(data)
    case None => None
    case Some(p) =>
      Some(Shown(
        OrElse(p.title, FallbackTitle),
        OrElse(p.body, ""),
        OrElse(p.tag, DefaultTag),
        p.data.GetOr(map[]),
        p.vibrate.GetOr(DefaultVibrate)))
  }

  /** Whatever arrives, a shown notification has a non-empty title and a
      non-empty tag, so the browser always has something to display and
      something to replace by. */
  lemma ShownHasTitleAndTag(data: PushData)
    requires OnPush(data).Some?
    ensures OnPush(data).value.title != "" && OnPush(data).value.tag != ""
  {
  }

  /** A payload carrying a non-empty title, body and tag, as the cron job
      sends, is shown with exactly those, an empty `data` and the default
      vibration. */
  lemma FullPayloadShownAsSent(title: string, body: string, tag: string)
    requires title != "" && body != "" && tag != ""
    ensures OnPush(JsonValue(PushFields(Some(title), Some(body), Some(tag), None, None)))
      == Some(Shown(title, body, tag, map[], DefaultVibrate))
  {
  }

  /** An open window client of the app. */
  datatype WindowClient = WindowClient(url: string, canFocus: bool)

  datatype ClickAction = Focus(index: nat) | OpenWindow(url: string) | NoAction

  /** A client the click handler may focus: at "/" and focusable. */
  predicate Focusable(c: WindowClient) {
    c.url == "/" && c.canFocus
  }

  /** The `notificationclick` listener: focus the first focusable client
      at "/"; failing that open a window on "/" if the browser can; else
      do nothing. */
  method OnNotificationClick(clients: seq<WindowClient>, canOpenWindow: bool) returns (a: ClickAction)
    ensures a.Focus? ==>
      && a.index < |clients| && Focusable(clients[a.index])
      && forall j :: 0 <= j < a.index ==> !Focusable(clients[j])
    ensures a.Focus? <==> exists i :: 0 <= i < |clients| && Focusable(clients[i])
    ensures a.OpenWindow? <==> canOpenWindow && forall i :: 0 <= i < |clients| ==> !Focusable(clients[i])
    ensures a.OpenWindow? ==> a.url == "/"
  {
    var n := 0;
    while n < |clients|
      invariant 0 <= n <= |clients|
      invariant forall j :: 0 <= j < n ==> !Focusable(clients[j])
    {
      if clients[n].url == "/" && clients[n].canFocus {
        return Focus(n);
      }
      n := n + 1;
    }
    if canOpenWindow {
      a := OpenWindow("/");
    } else {
      a := NoAction;
    }
  }
}

=== FILE: tasks.dfy ===
/** The client's task records and the two operations on them that the
    escalation engine depends on: creating a task with its default
    escalation policy, and toggling today's completion. */
module Tasks {
  import opened Common
  import opened Clock

  type TaskId = string

  /** A calendar date as the source writes it, "YYYY-MM-DD". */
  type Date = string

  /** How a task repeats.  Stored and displayed only; the engine treats
      every task as due every day. */
  datatype Recurrence = Once | Daily | Weekdays | Custom

  /** Display-only; does not affect escalation. */
  datatype Priority = Normal | High

  /** Per-task policy: minutes between re-alerts and the highest level. */
  datatype Escalation = Escalation(intervalMinutes: int, maxSteps: int)

  datatype Task = Task(
    id: TaskId,
    title: string,
    dueTime: Minute,
    recurrence: Recurrence,
    priority: Priority,
    escalation: Escalation,
    completedInstances: seq<Date>)

  const DefaultIntervalMinutes := 5
  const DefaultMaxSteps := 3

  /** The fields the task form submits.  `intervalMinutes` is the result of
      `parseInt` on the interval input: `None` stands for NaN. */
  datatype TaskForm = TaskForm(
    title: string,
    dueTime: Minute,
    priority: Priority,
    recurrence: Recurrence,
    intervalMinutes: Option<int>)

  /** JavaScript's `n || 5` on the parsed interval: NaN and 0 are falsy. */
  function IntervalOrDefault(n: Option<int>): (r: int)
    ensures n.Some? && n.value != 0 ==> r == n.value
    ensures n.None? || n.value == 0 ==> r == DefaultIntervalMinutes
  {
    match n
    case Some(v) => if v != 0 then v else DefaultIntervalMinutes
    case None => DefaultIntervalMinutes
  }

  /** A new task built from the form, with a fresh id (the source draws it
      from `crypto.randomUUID`, here a parameter), no completions, and the
      default escalation policy of at most three levels. */
  function AddTask(id: TaskId, form: TaskForm): (t: Task)
    ensures t.id == id && t.title == form.title && t.dueTime == form.dueTime
    ensures t.priority == form.priority && t.recurrence == form.recurrence
    ensures t.completedInstances == []
    ensures t.escalation.maxSteps == DefaultMaxSteps
    ensures t.escalation.intervalMinutes == IntervalOrDefault(form.intervalMinutes)
  {
    Task(id, form.title, form.dueTime, form.recurrence, form.priority,
         Escalation(IntervalOrDefault(form.intervalMinutes), DefaultMaxSteps), [])
  }

  /** A task is completed today iff today's date is among its completions. */
  predicate IsCompletedToday(task: Task, today: Date) {
    today in task.completedInstances
  }

  /** `dates.filter(d => d !== day)`: every copy of `day` goes, every other
      date keeps its multiplicity (and its order, `RemoveAllAppend`). */
  function RemoveAll(dates: seq<Date>, day: Date): (r: seq<Date>)
    ensures day !in r
    ensures forall d :: multiset(r)[d] == if d == day then 0 else multiset(dates)[d]
    ensures day !in dates ==> r == dates
  {
    if |dates| == 0 then []
    else
      var rest := RemoveAll(dates[1..], day);
      assert dates == [dates[0]] + dates[1..];
      if dates[0] == day then rest else [dates[0]] + rest
  }

  /** Flip membership of `today`: remove all its copies when present,
      append it when absent. */
  function ToggleDates(dates: seq<Date>, today: Date): (r: seq<Date>)
    ensures today in r <==> today !in dates
    ensures forall d :: d != today ==> multiset(r)[d] == multiset(dates)[d]
    ensures today !in dates ==> r == dates + [today]
  {
    if today in dates then RemoveAll(dates, today) else dates + [today]
  }

  /** The index of the first task with this id, as `Array.find` picks it. */
  function FindTask(tasks: seq<Task>, id: TaskId): (r: Option<nat>)
    ensures r.None? <==> forall i :: 0 <= i < |tasks| ==> tasks[i].id != id
    ensures r.Some? ==> r.value < |tasks| && tasks[r.value].id == id
    ensures r.Some? ==> forall i :: 0 <= i < r.value ==> tasks[i].id != id
  {
    if |tasks| == 0 then None
    else if tasks[0].id == id then Some(0)
    else
      match FindTask(tasks[1..], id)
      case None => None
      case Some(k) => Some(k + 1)
  }

  /** `TaskManager.toggleComplete`: an unknown id changes nothing; otherwise
      only the first task with that id has today's completion flipped. */
  function ToggleComplete(tasks: seq<Task>, id: TaskId, today: Date): (r: seq<Task>)
    ensures |r| == |tasks|
    ensures FindTask(tasks, id).None? ==> r == tasks
    ensures FindTask(tasks, id).Some? ==>
      var k := FindTask(tasks, id).value;
      && r[k] == tasks[k].(completedInstances := ToggleDates(tasks[k].completedInstances, today))
      && (IsCompletedToday(r[k], today) <==> !IsCompletedToday(tasks[k], today))
      && forall j :: 0 <= j < |tasks| && j != k ==> r[j] == tasks[j]
  {
    match FindTask(tasks, id)
    case None => tasks
    case Some(k) =>
      tasks[k := tasks[k].(completedInstances := ToggleDates(tasks[k].completedInstances, today))]
  }

  /** Removing a date that was just appended to a list without it gives
      the list back. */
  lemma {:induction false} RemoveAppended(dates: seq<Date>, day: Date)
    requires day !in dates
    ensures RemoveAll(dates + [day], day) == dates
  {
    if |dates| == 0 {
      assert dates + [day] == [day];
      assert [day][1..] == [];
    } else {
      assert (dates + [day])[1..] == dates[1..] + [day];
      RemoveAppended(dates[1..], day);
      assert dates == [dates[0]] + dates[1..];
    }
  }

  /** The filter keeps order: filtering a concatenation filters each part. */
  lemma {:induction false} RemoveAllAppend(a: seq<Date>, b: seq<Date>, day: Date)
    ensures RemoveAll(a + b, day) == RemoveAll(a, day) + RemoveAll(b, day)
    decreases |a|
  {
    if |a| > 0 {
      assert (a + b)[0] == a[0];
      assert (a + b)[1..] == a[1..] + b;
      RemoveAllAppend(a[1..], b, day);
    } else {
      assert a + b == b;
    }
  }

  /** A task added with an absent, NaN or non-negative interval has an
      interval and a level cap of at least one. */
  lemma AddTaskMeetsEngineLemmas(id: TaskId, form: TaskForm)
    requires form.intervalMinutes.None? || form.intervalMinutes.value >= 0
    ensures AddTask(id, form).escalation.intervalMinutes >= 1
    ensures AddTask(id, form).escalation.maxSteps >= 1
  {
  }

  /** The first toggle leaves the task where a second toggle finds it. */
  lemma ToggleKeepsPosition(tasks: seq<Task>, id: TaskId, today: Date, k: nat)
    requires FindTask(tasks, id) == Some(k)
    ensures FindTask(ToggleComplete(tasks, id, today), id) == Some(k)
  {
    var once := ToggleComplete(tasks, id, today);
    assert once[k].id == id;
    assert forall i :: 0 <= i < k ==> once[i] == tasks[i];
  }

  /** Toggling twice restores whether the task is completed today. */
  lemma ToggleTwiceRestoresStatus(tasks: seq<Task>, id: TaskId, today: Date, k: nat)
    requires FindTask(tasks, id) == Some(k)
    ensures IsCompletedToday(ToggleComplete(ToggleComplete(tasks, id, today), id, today)[k], today)
      == IsCompletedToday(tasks[k], today)
  {
    ToggleKeepsPosition(tasks, id, today, k);
  }

  /** Completing a task that was not completed today and then undoing it
      gives back the task list exactly. */
  lemma ToggleTwiceRestoresTasks(tasks: seq<Task>, id: TaskId, today: Date, k: nat)
    requires FindTask(tasks, id) == Some(k) && !IsCompletedToday(tasks[k], today)
    ensures ToggleComplete(ToggleComplete(tasks, id, today), id, today) == tasks
  {
    ToggleKeepsPosition(tasks, id, today, k);
    RemoveAppended(tasks[k].completedInstances, today);
    var twice := ToggleComplete(ToggleComplete(tasks, id, today), id, today);
    assert twice[k] == tasks[k];
  }
}
